=== FILE: README.md ===
# Coffee store: a Dafny model of the shop backend and the client cart

This project models the core of a small coffee-shop web application:

- **Backend (FastAPI and SQLAlchemy).** User registration and login with bcrypt passwords and HS256 bearer tokens. An admin gate in front of the write endpoints. Products, reviews and orders stored in five tables. An order is created in two phases: every line is validated first, then the order and its items are written.
- **Storefront script.** It keeps a cart keyed by product name, computes its total, filters the catalogue by category and refuses to check out an empty cart.

The database is a `Store` of five `Table`s. Each table maps an auto-assigned integer key to a row and keeps the counter the next insert uses (`tables.dfy`, `models.dfy`).

Every endpoint is a pure function:

- from a store and a request to `Result<Reply<T>, Error>`;
- or, for deletes, to `Result<Store, Error>`.

An `Error` carries the HTTP status the client would see. A failure carries no store, so a rejected request writes nothing.

Two libraries are kept opaque:

- **bcrypt** is a `Hasher` of two function values. The random salt is a parameter.
- **JWT signing** is a `TokenCodec`. The claim checks python-jose runs after the signature (expiry, type of `sub`) are modelled explicitly.

The clock is a parameter (`now`, in seconds).

Modules:

| file | module | contents |
|---|---|---|
| `wrappers.dfy` | `Wrappers` | `Option`, `Result` |
| `errors.dfy` | `Errors` | the HTTP errors and their status codes |
| `tables.dfy` | `Tables` | keyed tables, the scan order, `WHERE`, `OFFSET`/`LIMIT` |
| `models.dfy` | `Models` | rows, column defaults, the database invariant `Inv`, lookups |
| `schemas.dfy` | `Schemas` | request bodies and the validator's field constraints |
| `auth.dfy` | `Auth` | passwords, tokens, the user/active/admin gates |
| `accounts.dfy` | `Accounts` | register, login, me |
| `catalog.dfy` | `Catalog` | product endpoints |
| `reviews.dfy` | `Reviews` | review endpoints |
| `orders.dfy` | `Orders` | order endpoints |
| `invariants.dfy` | `StoreInvariants` | every write keeps `Inv`, and with validated bodies also the value-level `DataInv` |
| `readback.dfy` | `ReadBack` | what the read endpoints return after each write |
| `cart.dfy` | `ShopCart` | the client cart, its total, the catalogue filter, checkout |

Behaviour of the code that the model keeps:

- A duplicate product name is an uncaught `IntegrityError` and reaches the client as a 500. So does deleting a product that order items still reference.
- `get_current_user` answers 404 when a valid token names no user.
- A token is refused once its `exp` lies strictly in the past (python-jose's rule). A token whose `sub` is not a string is refused with 401.
- `update_order_status` accepts any of the four statuses from any current status.
- Orders are always created for user 1, and `total_amount` is copied from the request, never recomputed.

## Model

| member | source | states |
|---|---|---|
| Models.EmptyStore | my-coffee-store/backend/app/models.py:9-79 | the empty database satisfies the schema invariant (keys, unique columns, foreign keys) |
| Models.UserByUsername | my-coffee-store/backend/app/auth.py:54 | the lookup finds a user with that name exactly when one exists |
| Models.UserByEmail | my-coffee-store/backend/app/main.py:48 | the lookup finds a user with that e-mail exactly when the address is in use |
| Models.ItemsOf | my-coffee-store/backend/app/models.py:66 | an order's items are exactly the stored items pointing at it; none once no item points at it |
| Tables.Table.Insert | my-coffee-store/backend/app/models.py:12 | an insert lands under a fresh key, keeps every other row and keeps the key counter above all keys |
| Tables.Table.Keys | my-coffee-store/backend/app/main.py:102 | rows are read back in the model's key order (ascending), each key exactly once |
| Tables.KeysIn | my-coffee-store/backend/app/main.py:102 | the key list in the model's key order holds exactly the keys in range |
| Tables.KeysInCount | my-coffee-store/backend/app/main.py:102 | the key list in the model's key order has no repetition |
| Tables.Select | my-coffee-store/backend/app/main.py:193-197 | a `WHERE` keeps exactly the listed keys whose row matches, in order |
| Tables.SelectNone | my-coffee-store/backend/app/main.py:193-197 | a `WHERE` that no row satisfies selects nothing |
| Tables.Page | my-coffee-store/backend/app/main.py:203 | `OFFSET`/`LIMIT` returns at most `limit` rows, starting at `skip` |
| Tables.FirstWhere | my-coffee-store/backend/app/auth.py:54 | `.first()` returns the first matching key in the model's key order, and nothing exactly when no row matches |
| Tables.PageOfMatches | my-coffee-store/backend/app/main.py:203 | of `n` matching keys, `OFFSET skip LIMIT limit` keeps `min(limit, max(0, n - skip))`: exactly those with at least `skip` and fewer than `skip + limit` matches before them |
| Tables.Query | my-coffee-store/backend/app/main.py:314-317 | a filtered page holds only matching rows, in the model's key order; it holds `min(limit, max(0, n - skip))` of the `n` matches, namely a key exactly when its rank among the matches lies in `[skip, skip + limit)` |
| Tables.RowsOfPage | my-coffee-store/backend/app/main.py:314-317 | the rows read back for a page are as many as its keys; every row ranked inside the window is among them, and, when no two keys hold the same row, only those |
| Auth.AuthenticateUser | my-coffee-store/backend/app/auth.py:50-59 | an unknown name or a password that does not verify gives no user; a found user has that name and a verifying hash |
| Auth.Lifetime | my-coffee-store/backend/app/auth.py:42-45 | a zero or missing delta takes the 30-minute default |
| Auth.TokenClaims | my-coffee-store/backend/app/auth.py:41-46 | the signed payload is the caller's data with `exp` set to now plus the lifetime |
| Auth.CreateAccessToken | my-coffee-store/backend/app/auth.py:37-48 | a signed token opens to exactly the payload it was made from |
| Auth.ParseInt | my-coffee-store/backend/app/auth.py:71 | `int()` on a string reads a signed run of decimal digits and refuses anything else |
| Auth.ParseIntRoundTrip | my-coffee-store/backend/app/auth.py:71 | `int()` reads back the decimal form of every integer |
| Auth.ExpiryOf | my-coffee-store/backend/app/auth.py:71 | a numeric `exp` is taken as is and a string `exp` as `int()` reads it |
| Auth.JwtDecode | my-coffee-store/backend/app/auth.py:71 | a token decodes exactly when its signature checks and its claims pass the expiry and subject checks |
| Auth.StringExpiryAccepted | my-coffee-store/backend/app/auth.py:71 | an `exp` written as the decimal string of an instant is accepted exactly when the same instant as a number would be |
| Auth.DecodeAccessToken | my-coffee-store/backend/app/auth.py:61-78 | success exactly when the token decodes and carries `sub`, giving that subject; otherwise 401 |
| Auth.TokenRoundTrip | my-coffee-store/backend/app/auth.py:37-78 | a token issued for a subject decodes to that subject until its expiry instant |
| Auth.TokenExpires | my-coffee-store/backend/app/auth.py:43-46 | after its expiry instant the same token is refused with 401 |
| Auth.CurrentUser | my-coffee-store/backend/app/auth.py:80-88 | no token or a bad token gives 401; a subject with no user gives 404; success exactly when the token decodes to a username in use, giving the user with that name |
| Auth.CurrentActiveUser | my-coffee-store/backend/app/auth.py:90-95 | the active-user gate passes the resolved user through unchanged |
| Auth.CurrentAdminUser | my-coffee-store/backend/app/auth.py:97-103 | succeeds exactly for a resolved administrator; a resolved non-admin gets 403 |
| Accounts.Register | my-coffee-store/backend/app/main.py:43-62 | a taken username is a 400, then a taken e-mail is a 400; otherwise exactly one user is added, storing the hash of the password and the requested admin flag |
| Accounts.Login | my-coffee-store/backend/app/main.py:64-80 | 401 exactly when authentication fails; otherwise a bearer token carrying the username and a 30-minute expiry |
| Accounts.Me | my-coffee-store/backend/app/main.py:82-84 | succeeds exactly when the token decodes to a username in use, answering with that user; otherwise 401 or 404 |
| Accounts.LoginThenMe | my-coffee-store/backend/app/main.py:64-84 | a token from a successful login resolves to the user who logged in until it expires |
| Accounts.LoginTokenExpires | my-coffee-store/backend/app/main.py:76-79 | once the 30 minutes are over, the login token is refused with 401 |
| Catalog.NewProduct | my-coffee-store/backend/app/main.py:94 | a new product row copies the request; unset optional fields take their defaults (available) |
| Catalog.CreateProduct | my-coffee-store/backend/app/main.py:88-98 | gate errors pass through; a duplicate name is a 500; otherwise exactly one product is added |
| Catalog.ListProducts | my-coffee-store/backend/app/main.py:100-103 | at most `limit` stored products, in the model's key order, and every product when the page is large enough |
| Catalog.ListProductsPage | my-coffee-store/backend/app/main.py:100-103 | a page of products holds `min(limit, max(0, n - skip))` of the `n` products: every product whose position in key order lies in `[skip, skip + limit)`, and (with consistent ids) no other |
| Catalog.ReadProduct | my-coffee-store/backend/app/main.py:105-110 | the stored row exactly when the id exists, otherwise 404 |
| Catalog.Patch | my-coffee-store/backend/app/main.py:122-123 | only the fields the request set are overwritten; the rest keep their stored values |
| Catalog.PatchIdempotent | my-coffee-store/backend/app/main.py:122-123 | applying the same update twice equals applying it once |
| Catalog.PatchAllFieldsIsCreate | my-coffee-store/backend/app/main.py:94 | an update that sets every field yields the row a create would have made |
| Catalog.UpdateProduct | my-coffee-store/backend/app/main.py:112-127 | gate errors pass through, then 404, then a 500 on a name clash; otherwise only that row changes |
| Catalog.DetachReviews | my-coffee-store/backend/app/models.py:33 | deleting a product clears the product reference of exactly its reviews |
| Catalog.DeleteProduct | my-coffee-store/backend/app/main.py:129-140 | gate errors pass through, then 404, then a 500 if order items reference the product; otherwise the row goes and its reviews are detached |
| Reviews.CreateReview | my-coffee-store/backend/app/main.py:144-178 | 404 for a missing author, then 404 for a truthy missing product id; otherwise exactly one review is added |
| Reviews.ListReviews | my-coffee-store/backend/app/main.py:181-205 | a page of reviews matching the truthy filters, in the model's key order, and all matches when the page is large enough |
| Reviews.ListReviewsPage | my-coffee-store/backend/app/main.py:181-205 | a page of reviews holds `min(limit, max(0, n - skip))` of the `n` matching reviews: every match ranked in `[skip, skip + limit)`, and (with consistent ids) no other |
| Reviews.ReadReview | my-coffee-store/backend/app/main.py:207-219 | the stored row exactly when the id exists, otherwise 404 |
| Reviews.DeleteReview | my-coffee-store/backend/app/main.py:221-232 | gate errors pass through, then 404; otherwise only that review goes |
| Orders.LineError | my-coffee-store/backend/app/main.py:255-259 | a missing product is a 404, reported before a non-positive quantity (400) |
| Orders.FirstBad | my-coffee-store/backend/app/main.py:254-259 | the lines are checked in request order and the first failing one is found |
| Orders.ValidateLines | my-coffee-store/backend/app/main.py:253-260 | validation fails exactly on the first bad line with its error; on success it returns each line's product row |
| Orders.AddItems | my-coffee-store/backend/app/main.py:274-283 | one item per line, duplicates included, under consecutive keys, priced from the snapshot |
| Orders.NewOrder | my-coffee-store/backend/app/main.py:262-269 | the order belongs to user 1, is pending, and copies the request's total and delivery details |
| Orders.AddItemsPlaced | my-coffee-store/backend/app/main.py:274-283 | the written items keep all earlier rows and price each line at the product's current price |
| Orders.WriteOrder | my-coffee-store/backend/app/main.py:262-283 | the write phase adds exactly one order and one item per line and leaves the other tables alone |
| Orders.CreateOrder | my-coffee-store/backend/app/main.py:237-292 | 404 without user 1, then the first bad line's error; success exactly when every line is good, writing the order and its items |
| Orders.ValidOrderNeverInvalidQuantity | my-coffee-store/backend/app/schemas.py:79 | with a schema-valid body the handler's quantity check never fires, so every failure is a 404 |
| Orders.PlacedItemsOwned | my-coffee-store/backend/app/main.py:274-283 | after placement, the items of the new order are exactly the new key range |
| Orders.CreatedOrderOwnsNewItems | my-coffee-store/backend/app/main.py:237-292 | after a create, the new order's items are exactly the rows just written, none older |
| Orders.ReadOrder | my-coffee-store/backend/app/main.py:321-337 | the stored row exactly when the id exists, otherwise 404 |
| Orders.ListOrders | my-coffee-store/backend/app/main.py:295-319 | a page of orders matching the truthy user filter and non-empty status filter, in the model's key order |
| Orders.ListOrdersPage | my-coffee-store/backend/app/main.py:295-319 | a page of orders holds `min(limit, max(0, n - skip))` of the `n` matching orders: every match ranked in `[skip, skip + limit)`, and (with consistent ids) no other |
| Orders.UpdateOrderStatus | my-coffee-store/backend/app/main.py:339-366 | gate errors pass through, then 404, then 400 outside the four statuses; otherwise only that order's status changes |
| Orders.UpdateOrderStatusAsWritten | my-coffee-store/backend/app/main.py:339-357 | as written, both client errors after the gate become 500s; successful updates are unchanged |
| Orders.ShadowedStatusHidesClientErrors | my-coffee-store/backend/app/main.py:342-352 | the code as written and the intended handler agree on success and differ (500 against 404/400) on the error paths |
| Orders.ItemsWithout | my-coffee-store/backend/app/models.py:66 | the cascade keeps exactly the items of other orders, unchanged |
| Orders.DeleteOrder | my-coffee-store/backend/app/main.py:368-379 | gate errors pass through, then 404; otherwise the order and all of its items go, and nothing else changes |
| StoreInvariants.InsertFreshUserKeepsUnique | my-coffee-store/backend/app/models.py:13-14 | a user with a free name and e-mail keeps both columns unique |
| StoreInvariants.RegisterKeepsInv | my-coffee-store/backend/app/main.py:43-62 | registration keeps the database invariant |
| StoreInvariants.InsertFreshProductKeepsInv | my-coffee-store/backend/app/models.py:27 | a product with a free name keeps the invariant |
| StoreInvariants.CreateProductKeepsInv | my-coffee-store/backend/app/main.py:88-98 | product creation keeps the invariant |
| StoreInvariants.ReplaceProductKeepsInv | my-coffee-store/backend/app/models.py:27 | overwriting a product without a name clash keeps the invariant |
| StoreInvariants.UpdateProductKeepsInv | my-coffee-store/backend/app/main.py:112-127 | product update keeps the invariant |
| StoreInvariants.RemoveProductKeepsInv | my-coffee-store/backend/app/models.py:33-34 | removing an unordered product and detaching its reviews keeps the invariant |
| StoreInvariants.DeleteProductKeepsInv | my-coffee-store/backend/app/main.py:129-140 | product deletion keeps the invariant: no review or item is left pointing at a missing product |
| StoreInvariants.CreateReviewKeepsInv | my-coffee-store/backend/app/main.py:144-178 | review creation keeps the invariant |
| StoreInvariants.DeleteReviewKeepsInv | my-coffee-store/backend/app/main.py:221-232 | review deletion keeps the invariant |
| StoreInvariants.PlacedItemsKeepRefs | my-coffee-store/backend/app/models.py:73-74 | newly placed items point at an existing order and existing products |
| StoreInvariants.CreateOrderKeepsInv | my-coffee-store/backend/app/main.py:237-292 | order creation keeps the invariant |
| StoreInvariants.ReplaceOrderKeepsInv | my-coffee-store/backend/app/models.py:55 | overwriting an order with the same owner keeps the invariant |
| StoreInvariants.UpdateOrderStatusKeepsInv | my-coffee-store/backend/app/main.py:339-366 | status update keeps the invariant |
| StoreInvariants.RemoveOrderKeepsInv | my-coffee-store/backend/app/models.py:66 | removing an order together with its items leaves no orphaned item |
| StoreInvariants.DeleteOrderKeepsInv | my-coffee-store/backend/app/main.py:368-379 | order deletion keeps the invariant |
| StoreInvariants.HandleKeepsInv | my-coffee-store/backend/app/main.py:43-379 | every write request, successful or not, leaves a database satisfying the invariant |
| StoreInvariants.PlacedItemsPositive | my-coffee-store/backend/app/main.py:258-280 | placed items have positive quantities and positive snapshot prices |
| StoreInvariants.RegisterKeepsDataInv | my-coffee-store/backend/app/schemas.py:10-14 | a validated registration keeps every stored row within the schema bounds |
| StoreInvariants.CreateProductKeepsDataInv | my-coffee-store/backend/app/schemas.py:36-40 | a validated product create keeps the value-level invariant |
| StoreInvariants.UpdateProductKeepsDataInv | my-coffee-store/backend/app/schemas.py:36-40 | a validated product update keeps the value-level invariant |
| StoreInvariants.RemoveProductKeepsDataInv | my-coffee-store/backend/app/models.py:33 | detaching reviews keeps the value-level invariant |
| StoreInvariants.DeleteProductKeepsDataInv | my-coffee-store/backend/app/main.py:129-140 | product deletion keeps the value-level invariant |
| StoreInvariants.CreateReviewKeepsDataInv | my-coffee-store/backend/app/schemas.py:58-59 | a validated review keeps the value-level invariant |
| StoreInvariants.DeleteReviewKeepsDataInv | my-coffee-store/backend/app/main.py:221-232 | review deletion keeps the value-level invariant |
| StoreInvariants.CreateOrderKeepsDataInv | my-coffee-store/backend/app/schemas.py:79-87 | a validated order keeps the value-level invariant, including positive item quantities and prices |
| StoreInvariants.UpdateOrderStatusKeepsDataInv | my-coffee-store/backend/app/main.py:350-354 | a status update keeps every order's status among the four names |
| StoreInvariants.DeleteOrderKeepsDataInv | my-coffee-store/backend/app/main.py:368-379 | order deletion keeps the value-level invariant |
| StoreInvariants.HandleKeepsDataInv | my-coffee-store/backend/app/schemas.py:9-87 | every validated write request keeps the value-level invariant |
| ReadBack.RegisterThenLogin | my-coffee-store/backend/app/main.py:43-80 | a fresh registration can log in with the password it registered |
| ReadBack.CreateProductThenRead | my-coffee-store/backend/app/main.py:88-110 | a created product reads back as returned; other ids read as before |
| ReadBack.UpdateProductThenRead | my-coffee-store/backend/app/main.py:105-127 | an updated product reads back patched; other ids read as before |
| ReadBack.DeleteProductThenRead | my-coffee-store/backend/app/main.py:105-140 | a deleted product reads as 404; other ids read as before |
| ReadBack.CreateReviewThenRead | my-coffee-store/backend/app/main.py:144-219 | a created review reads back as returned; other ids read as before |
| ReadBack.DeleteReviewThenRead | my-coffee-store/backend/app/main.py:207-232 | a deleted review reads as 404; other ids read as before |
| ReadBack.CreateOrderThenRead | my-coffee-store/backend/app/main.py:237-337 | a created order reads back as a pending order of user 1 with the request's total, and each request line is among its items under a fresh key, priced at the product's price |
| ReadBack.UpdateOrderStatusThenRead | my-coffee-store/backend/app/main.py:321-366 | an updated order reads back with the new status; other ids read as before |
| ReadBack.DeleteOrderThenRead | my-coffee-store/backend/app/main.py:321-379 | a deleted order reads as 404 and has no items left; other ids read as before |
| ShopCart.AddToCart | js/js.js:54-58 | a new name enters with one unit at the given price; an existing one gains a unit and keeps its first price; nothing else changes |
| ShopCart.UpdateQty | js/js.js:64-71 | an absent name changes nothing; otherwise the quantity moves by delta and the entry is dropped at zero or below |
| ShopCart.RemoveItem | js/js.js:73-76 | exactly the named entry goes |
| ShopCart.AddThenDecrement | js/js.js:54-71 | pressing minus right after adding undoes the add |
| ShopCart.TotalWithout | js/js.js:81-87 | the total is one entry's subtotal plus the total of the rest, whichever entry is taken |
| ShopCart.TotalAfterAdd | js/js.js:54-58 | adding a unit raises the total by the stored unit price |
| ShopCart.TotalAfterUpdate | js/js.js:64-71 | a quantity change moves the total by delta units, or removes the whole subtotal once the entry drops out |
| ShopCart.TotalAfterRemove | js/js.js:73-76 | removing an entry takes its subtotal off the total |
| ShopCart.SumOverRestrict | js/js.js:83-87 | summing over distinct names gives the total of the entries they name |
| ShopCart.RenderTotal | js/js.js:78-106 | the displayed total is the sum of quantity times price over the cart, whatever order the loop visits the names |
| ShopCart.RunKeepsValid | js/js.js:54-76 | any sequence of add, update and remove clicks keeps every entry at one unit or more |
| ShopCart.Checkout | js/js.js:144-147 | an order is submitted exactly when the cart is not empty |
| ShopCart.FilterProducts | js/js.js:34-36 | exactly the chosen category's products; `all` shows every product; a single card is shown exactly when it matches |
| ShopCart.FilterProductsAppend | js/js.js:36 | filtering distributes over joining catalogues, so the shown cards keep catalogue order and repetitions |

## Left out

- The database engine. Its `database.py` is not part of this model. Keys come from a counter that never reuses a value, and each handler's commits are treated as one atomic step. Concurrency, connection handling and the separate commits of `create_order` are not modelled.
- Row order: queries without `ORDER BY` are modelled as ascending key order. The program leaves that order, and so which rows a `skip`/`limit` page holds, to the database engine.
- Persisting data. Nothing persists outside the `Store` value.
- Eager loading with `joinedload`. It changes how related rows are fetched, not which rows are returned.
- The second `GET /api/reviews/` route (`read_all_reviews`, main.py:381-393). The earlier `read_reviews` registers the same path and method first, so the router never reaches the second one.
- E-mail syntax. The `EmailStr` check needs a mail-address grammar that is not modelled.
- Money. Prices and totals are integers, not floating-point numbers. The backend only copies them.
- Time. Timestamps are integer seconds, not microsecond datetimes. `created_at` is the `now` parameter.
- Negative `skip`/`limit`. They are modelled as natural numbers.
- Integer column width. Integers are unbounded. The database engine's range for `Integer` columns (64-bit on SQLite, 32-bit on PostgreSQL) is not modelled, and neither is the uncaught error, a 500, it raises for a larger `quantity`, id, `skip` or `limit`. For `create_order` that error would come after the order header is committed (main.py:271). `Orders.CreateOrder` succeeds on such input.
- Password hashing internals: bcrypt's salting, cost factor and timing-safe comparison. The hasher is a pair of function values, with the salt as a parameter.
- JWT internals: HS256 signatures and the secret key. They sit behind `TokenCodec`.
- JWT claim types. Only string and integer claim values are modelled. Claims other than `exp` and `sub` (such as `aud`, `nbf` and `iat`, which python-jose also checks) are kept but not checked.
- Auth.ParseInt: Python's `int()` also accepts surrounding whitespace, `_` between digits and non-ASCII decimal digits; the model refuses such an `exp` string.
- Auth.DecodeAccessToken: a missing `SECRET_KEY` environment variable is not modelled. The codec is assumed to be configured.
- Reviews.CreateReview: a zero `product_id` is falsy, so it skips the existence check and is stored as given. The model keeps that behaviour, and `ReviewRefs` only constrains truthy ids.
- Schemas.ValidProductCreate: the image URL has no constraint in the request schema, and none is modelled.
- Schemas.ValidReviewCreate: Pydantic's own type coercions (for example a numeric string for an integer) are not modelled.
- Unvalidated bodies. The handlers accept bodies whether or not they pass the request validator, as the validator is a separate layer. Only the lemmas about `DataInv` assume validated bodies.
- Page rendering and DOM manipulation: `renderProducts`' card markup, the cart table markup, `formatPrice` (locale formatting), `submitReview` (only prepends to the page) and `generateOrderId` (reads the wall clock).
- The request `checkout` sends. `submitOrder` is not defined in the script, so only the empty-cart decision is modelled.
- Duplicate function declarations. The script declares `removeItem` and `updateQty` twice with identical bodies. The later declaration wins and behaves the same.
- ShopCart.AddToCart: a product name that collides with an inherited object property (such as `constructor`) would make `!cart[name]` false for a fresh cart. Such names are not modelled; the cart is a plain map.
- ShopCart.Total: JavaScript floating-point rounding of quantity times price is not modelled; prices are integers.

## Findings

| source | as written | input that shows it | evidently intended | confidence | as-written member | corrected member |
|---|---|---|---|---|---|---|
| my-coffee-store/backend/app/main.py:342-352 | the form parameter `status` hides the `status` module, so `status.HTTP_404_NOT_FOUND` and `status.HTTP_400_BAD_REQUEST` are attribute lookups on a string and raise, and the client gets a 500 | an administrator's `PUT /api/orders/{id}/status` for an id with no order, or with `status=shipped` | 404 for a missing order and 400 for an unknown status, as the handler's own `raise` lines say | high, not executed | Orders.UpdateOrderStatusAsWritten, Orders.ShadowedStatusHidesClientErrors | Orders.UpdateOrderStatus |

=== FILE: accounts.dfy ===
/** The account endpoints: `POST /api/auth/register`, `POST /api/auth/login`
    and `GET /api/auth/me`. */
module Accounts {
  import opened Wrappers
  import opened Errors
  import opened Tables
  import opened Models
  import opened Schemas
  import opened Auth

  /** The login response body. */
  datatype TokenResponse = TokenResponse(accessToken: string, tokenType: string)

  /** `register_user`: refuse a taken username, then a taken e-mail address;
      otherwise store one new user whose password column holds the hasher's
      output under the drawn salt. */
  function Register(s: Store, h: Hasher, salt: Salt, req: UserCreate): (r: Result<Reply<User>, Error>)
    requires s.users.WellFormed()
    ensures UsernameInUse(s.users.rows, req.username) ==> r == Failure(UsernameTaken)
    ensures !UsernameInUse(s.users.rows, req.username) && EmailInUse(s.users.rows, req.email) ==>
              r == Failure(EmailTaken)
    ensures r.Success? <==> !UsernameInUse(s.users.rows, req.username) && !EmailInUse(s.users.rows, req.email)
    ensures r.Success? ==>
              var u := r.value.body;
              var s' := r.value.store;
              && u.id !in s.users.rows
              && s'.users.rows == s.users.rows[u.id := u]
              && |s'.users.rows| == |s.users.rows| + 1
              && s'.users.WellFormed()
              && u.username == req.username && u.email == req.email
              && u.hashedPassword == h.hash(req.password, salt)
              && u.fullName == req.fullName
              && u.isAdmin == (req.isAdmin == Given(true))
              && s' == s.(users := s'.users)
  {
    if UserByUsername(s.users, req.username).Some? then Failure(UsernameTaken)
    else if UserByEmail(s.users, req.email).Some? then Failure(EmailTaken)
    else
      var u := User(s.users.next, req.username, req.email, h.hash(req.password, salt),
                    req.fullName, req.isAdmin.Or(DefaultIsAdmin));
      Success(Reply(s.(users := s.users.Insert(u)), u))
  }

  /** The payload of the token issued to `username` at `now`. */
  function LoginClaims(username: string, now: int): Claims {
    map["sub" := Text(username), "exp" := Number(now + DefaultLifetime)]
  }

  /** `login_for_access_token`: a 401 when the credentials do not authenticate,
      otherwise a bearer token whose subject is the username and which
      expires `ACCESS_TOKEN_EXPIRE_MINUTES` after `now`. */
  function Login(s: Store, h: Hasher, codec: TokenCodec, form: LoginForm, now: int): (r: Result<TokenResponse, Error>)
    requires s.users.WellFormed()
    ensures r.Failure? <==> AuthenticateUser(s.users, h, form.username, form.password).None?
    ensures r.Failure? ==> r.error == IncorrectCredentials && r.error.Status() == 401
    ensures r.Success? ==> r.value.tokenType == "bearer"
    ensures r.Success? && SoundCodec(codec) ==>
              codec.open(r.value.accessToken) == Some(LoginClaims(form.username, now))
  {
    match AuthenticateUser(s.users, h, form.username, form.password)
    case None => Failure(IncorrectCredentials)
    case Some(u) =>
      var token := CreateAccessToken(codec, map["sub" := Text(u.username)], Some(DefaultLifetime), now);
      assert TokenClaims(map["sub" := Text(u.username)], Some(DefaultLifetime), now) == LoginClaims(u.username, now);
      Success(TokenResponse(token, "bearer"))
  }

  /** `read_users_me`: the user the bearer token resolves to, through the
      `get_current_user` dependency. A missing or undecodable token is a 401,
      a subject that names no user is a 404. */
  function Me(s: Store, b: Bearer): (r: Result<User, Error>)
    requires s.users.WellFormed()
    ensures r.Success? <==> b.token.Some? && DecodeAccessToken(b.codec, b.token.value, b.now).Success?
                            && UsernameInUse(s.users.rows, DecodeAccessToken(b.codec, b.token.value, b.now).value)
    ensures r.Success? ==> r.value in s.users.rows.Values
                           && r.value.username == DecodeAccessToken(b.codec, b.token.value, b.now).value
    ensures r.Failure? ==> r.error.Status() in {401, 404}
  {
    CurrentUser(s, b)
  }

  /** A token from a successful login resolves, until it expires, to the user
      who logged in. */
  lemma LoginThenMe(s: Store, h: Hasher, codec: TokenCodec, form: LoginForm, issued: int, later: int)
    requires s.users.WellFormed() && SoundCodec(codec)
    requires Login(s, h, codec, form, issued).Success?
    requires later <= issued + DefaultLifetime
    ensures Me(s, Bearer(codec, Some(Login(s, h, codec, form, issued).value.accessToken), later))
            == Success(AuthenticateUser(s.users, h, form.username, form.password).value)
  {
    var token := Login(s, h, codec, form, issued).value.accessToken;
    assert DecodeAccessToken(codec, token, later) == Success(form.username);
  }

  /** Once its lifetime has passed, the same token is refused with a 401. */
  lemma LoginTokenExpires(s: Store, h: Hasher, codec: TokenCodec, form: LoginForm, issued: int, later: int)
    requires s.users.WellFormed() && SoundCodec(codec)
    requires Login(s, h, codec, form, issued).Success?
    requires later > issued + DefaultLifetime
    ensures Me(s, Bearer(codec, Some(Login(s, h, codec, form, issued).value.accessToken), later))
            == Failure(InvalidCredentials)
  {
    var token := Login(s, h, codec, form, issued).value.accessToken;
    assert !ClaimsAccepted(LoginClaims(form.username, issued), later);
  }
}

=== FILE: auth.dfy ===
/** Access control: password checking, bearer tokens and the user, active and
    admin gates that protected endpoints depend on. */
module Auth {
  import opened Wrappers
  import opened Errors
  import opened Tables
  import opened Models

  /** The random salt a hash call draws; passed in instead of drawn. */
  type Salt = nat

  /** The bcrypt password context, kept opaque: hashing under a salt and
      checking a plaintext against a stored hash. */
  datatype Hasher = Hasher(hash: (string, Salt) -> string, verify: (string, string) -> bool)

  /** A JSON value inside a token payload (only strings and integers are modelled). */
  datatype ClaimValue = Text(text: string) | Number(n: int)

  /** A token payload. */
  type Claims = map<string, ClaimValue>

  /** HS256 signing under the server's secret key, kept opaque: `encode` signs a
      payload, `open` checks a token's signature and parses its payload. */
  datatype TokenCodec = TokenCodec(encode: Claims -> string, open: string -> Option<Claims>)

  /** What a request presents: the `Authorization: Bearer` token if any, the
      signing scheme, and the server clock (seconds) when the request is served. */
  datatype Bearer = Bearer(codec: TokenCodec, token: Option<string>, now: int)

  /** A token the server signs opens to the payload it signed. */
  ghost predicate SoundCodec(codec: TokenCodec) {
    forall c :: codec.open(codec.encode(c)) == Some(c)
  }

  /** A plaintext checks against any hash made from it. */
  ghost predicate SoundHasher(h: Hasher) {
    forall p, salt :: h.verify(p, h.hash(p, salt))
  }

  const AccessTokenExpireMinutes := 30

  /** `ACCESS_TOKEN_EXPIRE_MINUTES` as a number of seconds. */
  const DefaultLifetime := AccessTokenExpireMinutes * 60

  // ---- passwords ------------------------------------------------------------

  /** `authenticate_user`: look the user up by name, then check the password
      against the stored hash; either failure gives None. */
  function AuthenticateUser(users: Table<User>, h: Hasher, username: string, password: string): (r: Option<User>)
    requires users.WellFormed()
    ensures (forall k :: k in users.rows ==> users.rows[k].username != username) ==> r == None
    ensures r.Some? ==> r.value in users.rows.Values && r.value.username == username
                        && h.verify(password, r.value.hashedPassword)
    ensures UniqueUsernames(users.rows) ==>
              forall k :: k in users.rows && users.rows[k].username == username ==>
                r == (if h.verify(password, users.rows[k].hashedPassword) then Some(users.rows[k]) else None)
  {
    match UserByUsername(users, username)
    case None => None
    case Some(u) => if h.verify(password, u.hashedPassword) then Some(u) else None
  }

  // ---- tokens ---------------------------------------------------------------

  /** The lifetime `create_access_token` applies: a zero or missing delta is
      falsy in Python and takes the default. */
  function Lifetime(delta: Option<int>): (d: int)
    ensures delta.Some? && delta.value != 0 ==> d == delta.value
    ensures delta.None? || delta.value == 0 ==> d == DefaultLifetime
  {
    if delta.Some? && delta.value != 0 then delta.value else DefaultLifetime
  }

  /** The payload `create_access_token` signs: a copy of `data` with `exp` set. */
  function TokenClaims(data: Claims, delta: Option<int>, now: int): (c: Claims)
    ensures c.Keys == data.Keys + {"exp"}
    ensures forall k :: k in data && k != "exp" ==> c[k] == data[k]
    ensures c["exp"] == Number(now + Lifetime(delta))
  {
    data["exp" := Number(now + Lifetime(delta))]
  }

  /** `create_access_token`: sign the payload; the token opens to exactly that payload. */
  function CreateAccessToken(codec: TokenCodec, data: Claims, delta: Option<int>, now: int): (token: string)
    ensures SoundCodec(codec) ==> codec.open(token) == Some(TokenClaims(data, delta, now))
  {
    codec.encode(TokenClaims(data, delta, now))
  }

  // ---- integers written as strings -------------------------------------------

  /** An ASCII decimal digit. */
  predicate IsDigit(ch: char) {
    '0' <= ch <= '9'
  }

  /** A non-empty run of ASCII decimal digits. */
  predicate IsDigits(t: string) {
    |t| > 0 && forall i :: 0 <= i < |t| ==> IsDigit(t[i])
  }

  /** The number a run of decimal digits spells, most significant digit first. */
  function DigitsValue(t: string): (v: nat)
    requires IsDigits(t)
    ensures |t| == 1 ==> v == (t[0] as int) - ('0' as int)
    decreases |t|
  {
    var d := (t[|t| - 1] as int) - ('0' as int);
    if |t| == 1 then d else 10 * DigitsValue(t[..|t| - 1]) + d
  }

  /** The integer Python's `int()` reads from a string made of an optional
      `+` or `-` sign and ASCII decimal digits; any other string is refused. */
  function ParseInt(t: string): (r: Option<int>)
    ensures r.Some? <==> IsDigits(t) || (|t| > 1 && t[0] in {'+', '-'} && IsDigits(t[1..]))
    ensures r.Some? && IsDigits(t) ==> r.value == DigitsValue(t)
    ensures r.Some? && t[0] == '-' ==> r.value == -(DigitsValue(t[1..]) as int)
    ensures r.Some? && t[0] == '+' ==> r.value == DigitsValue(t[1..])
  {
    if IsDigits(t) then Some(DigitsValue(t))
    else if |t| > 1 && t[0] == '-' && IsDigits(t[1..]) then Some(-(DigitsValue(t[1..]) as int))
    else if |t| > 1 && t[0] == '+' && IsDigits(t[1..]) then Some(DigitsValue(t[1..]))
    else None
  }

  /** The decimal digits of a natural number, as `str()` writes them. */
  function ShowNat(n: nat): (t: string)
    ensures IsDigits(t)
  {
    var d := ['0' + (n % 10) as char];
    if n < 10 then d else ShowNat(n / 10) + d
  }

  /** Reading back the digits of `n` gives `n`. */
  lemma {:induction false} DigitsRoundTrip(n: nat)
    ensures DigitsValue(ShowNat(n)) == n
  {
    if n >= 10 {
      var t := ShowNat(n);
      assert t[..|t| - 1] == ShowNat(n / 10);
      DigitsRoundTrip(n / 10);
    }
  }

  /** `int()` reads back the decimal form of every integer. */
  lemma ParseIntRoundTrip(n: int)
    ensures n >= 0 ==> ParseInt(ShowNat(n)) == Some(n)
    ensures n < 0 ==> ParseInt("-" + ShowNat(-n)) == Some(n)
  {
    if n >= 0 {
      DigitsRoundTrip(n);
    } else {
      var t := "-" + ShowNat(-n);
      assert t[1..] == ShowNat(-n);
      assert !IsDigits(t) by { assert !IsDigit(t[0]); }
      DigitsRoundTrip(-n);
    }
  }

  // ---- claims ---------------------------------------------------------------

  /** The `exp` value as python-jose's `int(claims["exp"])` sees it: a number
      as is, a string when `int()` can read it, otherwise nothing. */
  function ExpiryOf(v: ClaimValue): (r: Option<int>)
    ensures v.Number? ==> r == Some(v.n)
    ensures v.Text? ==> r == ParseInt(v.text)
  {
    match v
    case Number(n) => Some(n)
    case Text(t) => ParseInt(t)
  }

  /** The claim checks python-jose runs after the signature: an `exp` claim
      that `int()` cannot read is refused, one that reads as an instant in the
      past is refused, and a `sub` claim must be a string. */
  predicate ClaimsAccepted(c: Claims, now: int) {
    && ("exp" in c ==> ExpiryOf(c["exp"]).Some? && ExpiryOf(c["exp"]).value >= now)
    && ("sub" in c ==> c["sub"].Text?)
  }

  /** The decimal form of an integer, as `str()` writes it. */
  function ShowInt(n: int): (t: string)
    ensures n >= 0 ==> t == ShowNat(n)
    ensures n < 0 ==> t == "-" + ShowNat(-n)
  {
    if n >= 0 then ShowNat(n) else "-" + ShowNat(-n)
  }

  /** An `exp` written as the decimal string of an instant is judged like the
      number itself: accepted exactly while that instant is not yet past. */
  lemma StringExpiryAccepted(c: Claims, n: int, now: int)
    requires "exp" in c && c["exp"] == Text(ShowInt(n))
    requires "sub" in c ==> c["sub"].Text?
    ensures ClaimsAccepted(c, now) <==> n >= now
    ensures ClaimsAccepted(c, now) <==> ClaimsAccepted(c["exp" := Number(n)], now)
  {
    ParseIntRoundTrip(n);
  }

  /** `jwt.decode`: check the signature, parse the payload, check the claims. */
  function JwtDecode(codec: TokenCodec, token: string, now: int): (r: Option<Claims>)
    ensures r.Some? <==> codec.open(token).Some? && ClaimsAccepted(codec.open(token).value, now)
    ensures r.Some? ==> r == codec.open(token)
  {
    match codec.open(token)
    case None => None
    case Some(c) => if ClaimsAccepted(c, now) then Some(c) else None
  }

  /** `decode_access_token`: the `sub` claim of a valid token is the username.
      A token that does not decode, or carries no `sub`, is a 401. */
  function DecodeAccessToken(codec: TokenCodec, token: string, now: int): (r: Result<string, Error>)
    ensures r.Success? <==> JwtDecode(codec, token, now).Some? && "sub" in JwtDecode(codec, token, now).value
    ensures r.Success? ==> JwtDecode(codec, token, now).value["sub"] == Text(r.value)
    ensures r.Failure? ==> r == Failure(InvalidCredentials)
  {
    match JwtDecode(codec, token, now)
    case None => Failure(InvalidCredentials)
    case Some(c) =>
      if "sub" in c && c["sub"].Text? then Success(c["sub"].text) else Failure(InvalidCredentials)
  }

  /** A token issued for subject `name` decodes to `name` until its expiry
      instant, whatever other claims it carries apart from those python-jose
      checks (such as `aud` and `nbf`, which the model does not check). */
  lemma TokenRoundTrip(codec: TokenCodec, data: Claims, name: string, delta: Option<int>, issued: int, later: int)
    requires SoundCodec(codec)
    requires "sub" in data && data["sub"] == Text(name)
    requires later <= issued + Lifetime(delta)
    ensures DecodeAccessToken(codec, CreateAccessToken(codec, data, delta, issued), later) == Success(name)
  {
    var c := TokenClaims(data, delta, issued);
    assert c["sub"] == Text(name);
    assert ClaimsAccepted(c, later);
  }

  /** After its expiry instant the same token is refused with a 401. */
  lemma TokenExpires(codec: TokenCodec, data: Claims, delta: Option<int>, issued: int, later: int)
    requires SoundCodec(codec)
    requires later > issued + Lifetime(delta)
    ensures DecodeAccessToken(codec, CreateAccessToken(codec, data, delta, issued), later) == Failure(InvalidCredentials)
  {
    assert !ClaimsAccepted(TokenClaims(data, delta, issued), later);
  }

  // ---- gates ----------------------------------------------------------------

  /** `get_current_user`: no bearer token is a 401, a token that does not decode
      is a 401, and a decoded username that matches no user is a 404. */
  function CurrentUser(s: Store, b: Bearer): (r: Result<User, Error>)
    requires s.users.WellFormed()
    ensures b.token.None? ==> r == Failure(NotAuthenticated)
    ensures b.token.Some? && DecodeAccessToken(b.codec, b.token.value, b.now).Failure? ==>
              r == Failure(DecodeAccessToken(b.codec, b.token.value, b.now).error)
    ensures b.token.Some? && DecodeAccessToken(b.codec, b.token.value, b.now).Success? ==>
              var name := DecodeAccessToken(b.codec, b.token.value, b.now).value;
              && ((forall k :: k in s.users.rows ==> s.users.rows[k].username != name) <==> r == Failure(TokenUserNotFound))
              && (r.Success? ==> r.value in s.users.rows.Values && r.value.username == name)
    ensures r.Success? <==> b.token.Some? && DecodeAccessToken(b.codec, b.token.value, b.now).Success?
                            && UsernameInUse(s.users.rows, DecodeAccessToken(b.codec, b.token.value, b.now).value)
    ensures r.Failure? ==> r.error.Status() in {401, 404}
  {
    if b.token.None? then Failure(NotAuthenticated)
    else
      var name :- DecodeAccessToken(b.codec, b.token.value, b.now);
      match UserByUsername(s.users, name)
      case None => Failure(TokenUserNotFound)
      case Some(u) => Success(u)
  }

  /** `get_current_active_user`: a pass-through over the resolved user. */
  function CurrentActiveUser(s: Store, b: Bearer): (r: Result<User, Error>)
    requires s.users.WellFormed()
    ensures r == CurrentUser(s, b)
  {
    var u :- CurrentUser(s, b);
    Success(u)
  }

  /** `get_current_admin_user`: the resolved user if it is an administrator,
      otherwise 403; failures to resolve pass through unchanged. */
  function CurrentAdminUser(s: Store, b: Bearer): (r: Result<User, Error>)
    requires s.users.WellFormed()
    ensures CurrentUser(s, b).Failure? ==> r == CurrentUser(s, b)
    ensures CurrentUser(s, b).Success? && !CurrentUser(s, b).value.isAdmin ==> r == Failure(NotAdmin)
    ensures r.Success? <==> CurrentUser(s, b).Success? && CurrentUser(s, b).value.isAdmin
    ensures r.Success? ==> r.value == CurrentUser(s, b).value
  {
    var u :- CurrentUser(s, b);
    if !u.isAdmin then Failure(NotAdmin) else Success(u)
  }
}

=== FILE: cart.dfy ===
/** The storefront's client-side cart: an object keyed by product name holding
    a quantity and the unit price captured when the product was first added. */
module ShopCart {

  datatype Entry = Entry(qty: int, price: int)

  type Cart = map<string, Entry>

  /** The cart invariant: every entry holds at least one unit. */
  predicate Valid(c: Cart) {
    forall n :: n in c ==> c[n].qty >= 1
  }

  /** `addToCart`: a new name enters with quantity 1 at the given price; an
      existing one gains a unit and keeps the price it was first added at. */
  function AddToCart(c: Cart, name: string, price: int): (c': Cart)
    ensures c'.Keys == c.Keys + {name}
    ensures name !in c ==> c'[name] == Entry(1, price)
    ensures name in c ==> c'[name] == Entry(c[name].qty + 1, c[name].price)
    ensures forall n :: n in c && n != name ==> c'[n] == c[n]
    ensures Valid(c) ==> Valid(c')
  {
    var e := if name in c then c[name] else Entry(0, price);
    c[name := e.(qty := e.qty + 1)]
  }

  /** `updateQty`: nothing happens to an absent name; otherwise the quantity
      moves by `delta` and the entry is dropped once it reaches zero or below. */
  function UpdateQty(c: Cart, name: string, delta: int): (c': Cart)
    ensures name !in c ==> c' == c
    ensures name in c' <==> name in c && c[name].qty + delta > 0
    ensures name in c' ==> c'[name] == Entry(c[name].qty + delta, c[name].price)
    ensures forall n :: n != name ==> (n in c' <==> n in c)
    ensures forall n :: n in c && n != name ==> c'[n] == c[n]
    ensures Valid(c) ==> Valid(c')
  {
    if name !in c then c
    else if c[name].qty + delta <= 0 then c - {name}
    else c[name := c[name].(qty := c[name].qty + delta)]
  }

  /** `removeItem`: only the named entry goes. */
  function RemoveItem(c: Cart, name: string): (c': Cart)
    ensures c'.Keys == c.Keys - {name}
    ensures forall n :: n in c' ==> c'[n] == c[n]
    ensures Valid(c) ==> Valid(c')
  {
    c - {name}
  }

  /** Pressing ➖ right after adding a product undoes the add, in a valid cart. */
  lemma AddThenDecrement(c: Cart, name: string, price: int)
    requires Valid(c)
    ensures UpdateQty(AddToCart(c, name, price), name, -1) == c
  {
    var c' := UpdateQty(AddToCart(c, name, price), name, -1);
    assert c'.Keys == c.Keys;
  }

  // ---- the total ------------------------------------------------------------

  /** One row's subtotal in `renderCart`. */
  function Subtotal(e: Entry): int {
    e.qty * e.price
  }

  /** Some entry of a non-empty cart. */
  ghost function Pick(c: Cart): (n: string)
    requires |c| > 0
    ensures n in c
  {
    assert c != map[];
    var n :| n in c;
    n
  }

  /** `c` without the entry `n`, one entry smaller. */
  lemma Shrinks(c: Cart, n: string)
    requires n in c
    ensures |c - {n}| == |c| - 1
  {
    assert (c - {n}).Keys == c.Keys - {n};
  }

  /** The sum of the subtotals of all entries. */
  ghost function Total(c: Cart): int
    decreases |c|
  {
    if |c| == 0 then 0
    else
      var n := Pick(c);
      Shrinks(c, n);
      Subtotal(c[n]) + Total(c - {n})
  }

  /** The sum does not depend on which entry is taken out first. */
  lemma {:induction false} TotalWithout(c: Cart, k: string)
    requires k in c
    decreases |c|
    ensures Total(c) == Subtotal(c[k]) + Total(c - {k})
  {
    var n := Pick(c);
    if n != k {
      Shrinks(c, n);
      Shrinks(c, k);
      TotalWithout(c - {n}, k);
      TotalWithout(c - {k}, n);
      assert c - {n} - {k} == c - {k} - {n};
    }
  }

  /** A unit more of an entry adds its price to the subtotal. */
  lemma SubtotalShift(e: Entry, delta: int)
    ensures Subtotal(e.(qty := e.qty + delta)) == Subtotal(e) + delta * e.price
  {
    assert (e.qty + delta) * e.price == e.qty * e.price + delta * e.price;
  }

  /** Replacing the entry under `name` changes the total by the change in its subtotal. */
  lemma TotalReplace(c: Cart, name: string, e: Entry)
    requires name in c
    ensures Total(c[name := e]) == Total(c) - Subtotal(c[name]) + Subtotal(e)
  {
    var c' := c[name := e];
    TotalWithout(c, name);
    TotalWithout(c', name);
    assert c' - {name} == c - {name};
  }

  /** A new entry adds its subtotal to the total. */
  lemma TotalInsert(c: Cart, name: string, e: Entry)
    requires name !in c
    ensures Total(c[name := e]) == Total(c) + Subtotal(e)
  {
    var c' := c[name := e];
    TotalWithout(c', name);
    assert c' - {name} == c;
  }

  /** One unit more of an entry already in the cart adds its unit price. */
  lemma TotalBump(c: Cart, name: string)
    requires name in c
    ensures Total(c[name := c[name].(qty := c[name].qty + 1)]) == Total(c) + c[name].price
  {
    var e := c[name];
    TotalReplace(c, name, e.(qty := e.qty + 1));
    SubtotalShift(e, 1);
  }

  /** Adding one unit raises the total by the stored unit price. */
  lemma TotalAfterAdd(c: Cart, name: string, price: int)
    ensures Total(AddToCart(c, name, price)) == Total(c) + AddToCart(c, name, price)[name].price
  {
    if name in c {
      TotalBump(c, name);
    } else {
      TotalInsert(c, name, Entry(1, price));
    }
  }

  /** Moving a quantity by `delta` moves the total by `delta` units, unless
      the entry drops out, which removes its whole subtotal. */
  lemma TotalAfterUpdate(c: Cart, name: string, delta: int)
    requires name in c
    ensures c[name].qty + delta > 0 ==> Total(UpdateQty(c, name, delta)) == Total(c) + delta * c[name].price
    ensures c[name].qty + delta <= 0 ==> Total(UpdateQty(c, name, delta)) == Total(c) - Subtotal(c[name])
  {
    if c[name].qty + delta > 0 {
      TotalReplace(c, name, c[name].(qty := c[name].qty + delta));
      SubtotalShift(c[name], delta);
    } else {
      TotalWithout(c, name);
    }
  }

  /** Removing an entry takes its whole subtotal off the total. */
  lemma TotalAfterRemove(c: Cart, name: string)
    requires name in c
    ensures Total(RemoveItem(c, name)) == Total(c) - Subtotal(c[name])
  {
    TotalWithout(c, name);
  }

  /** The entries whose names appear in `names`. */
  function Restrict(c: Cart, names: seq<string>): (r: Cart)
    ensures forall n :: n in r <==> n in c && n in names
    ensures forall n :: n in r ==> r[n] == c[n]
  {
    map n | n in c && n in names :: c[n]
  }

  /** One more name visited adds that entry's subtotal, when the name is new. */
  lemma RestrictStep(c: Cart, names: seq<string>, name: string)
    requires name in c && name !in names
    ensures Total(Restrict(c, names + [name])) == Total(Restrict(c, names)) + Subtotal(c[name])
  {
    var seen := Restrict(c, names);
    assert Restrict(c, names + [name]) == seen[name := c[name]];
    TotalInsert(seen, name, c[name]);
  }

  /** The running sum of `renderCart`: the subtotals of the listed names, in
      list order. */
  function SumOver(c: Cart, names: seq<string>): int
    decreases |names|
  {
    if |names| == 0 then 0
    else
      var last := names[|names| - 1];
      SumOver(c, names[..|names| - 1]) + (if last in c then Subtotal(c[last]) else 0)
  }

  /** A name with no entry adds nothing to the restriction. */
  lemma RestrictSkip(c: Cart, names: seq<string>, name: string)
    requires name !in c
    ensures Restrict(c, names + [name]) == Restrict(c, names)
  {
  }

  /** Summing over distinct names gives the total of the entries they name. */
  lemma {:induction false} SumOverRestrict(c: Cart, names: seq<string>)
    requires forall j, k :: 0 <= j < k < |names| ==> names[j] != names[k]
    decreases |names|
    ensures SumOver(c, names) == Total(Restrict(c, names))
  {
    if |names| == 0 {
      assert Restrict(c, names) == map[];
    } else {
      var init := names[..|names| - 1];
      var last := names[|names| - 1];
      assert names == init + [last];
      SumOverRestrict(c, init);
      if last in c {
        assert last !in init;
        RestrictStep(c, init, last);
      } else {
        RestrictSkip(c, init, last);
      }
    }
  }

  /** Summing over a list of exactly the cart's names, each once, gives the total. */
  lemma SumOverAll(c: Cart, order: seq<string>)
    requires forall n :: n in c <==> n in order
    requires forall j, k :: 0 <= j < k < |order| ==> order[j] != order[k]
    ensures SumOver(c, order) == Total(c)
  {
    SumOverRestrict(c, order);
    assert Restrict(c, order) == c;
  }

  /** `renderCart`: sum the subtotals in whatever order the `for...in` loop
      visits the names; the result is the total whatever that order is. */
  method RenderTotal(c: Cart, order: seq<string>) returns (total: int)
    requires forall n :: n in c <==> n in order
    requires forall i, j :: 0 <= i < j < |order| ==> order[i] != order[j]
    ensures total == Total(c)
  {
    total := 0;
    var i := 0;
    while i < |order|
      invariant 0 <= i <= |order|
      invariant total == SumOver(c, order[..i])
    {
      var name := order[i];
      assert order[..i + 1][..i] == order[..i];
      if name in c {
        total := total + Subtotal(c[name]);
      }
      i := i + 1;
    }
    assert order[..|order|] == order;
    SumOverAll(c, order);
  }

  // ---- the cart as a state machine -------------------------------------------

  datatype Action = Add(name: string, price: int) | Update(name: string, delta: int) | Remove(name: string)

  function Step(c: Cart, a: Action): Cart {
    match a
    case Add(n, p) => AddToCart(c, n, p)
    case Update(n, d) => UpdateQty(c, n, d)
    case Remove(n) => RemoveItem(c, n)
  }

  function Run(c: Cart, actions: seq<Action>): Cart
    decreases |actions|
  {
    if |actions| == 0 then c else Run(Step(c, actions[0]), actions[1..])
  }

  /** From any valid cart, every sequence of clicks leaves each entry with at
      least one unit. */
  lemma {:induction false} RunKeepsValid(c: Cart, actions: seq<Action>)
    requires Valid(c)
    decreases |actions|
    ensures Valid(Run(c, actions))
  {
    if |actions| > 0 {
      RunKeepsValid(Step(c, actions[0]), actions[1..]);
    }
  }

  // ---- checkout and the catalogue filter ---------------------------------------

  datatype CheckoutOutcome = EmptyCartAlert | Submitted

  /** `checkout`: an empty cart only raises an alert; any other cart is submitted. */
  function Checkout(c: Cart): (r: CheckoutOutcome)
    ensures r == Submitted <==> |c| > 0
  {
    if |c.Keys| == 0 then EmptyCartAlert else Submitted
  }

  /** A catalogue card: the fields the filter and the cart use. */
  datatype CatalogEntry = CatalogEntry(name: string, price: int, category: string)

  const ShowAll := "all"

  /** `renderProducts`: the products of the chosen category, in catalogue
      order; `all` shows everything. */
  function FilterProducts(ps: seq<CatalogEntry>, filter: string): (r: seq<CatalogEntry>)
    ensures forall p :: p in r <==> p in ps && (filter == ShowAll || p.category == filter)
    ensures filter == ShowAll ==> r == ps
    ensures |r| <= |ps|
    ensures |ps| == 1 ==> r == (if filter == ShowAll || ps[0].category == filter then ps else [])
  {
    if |ps| == 0 then []
    else
      var rest := FilterProducts(ps[1..], filter);
      assert forall p :: p in ps <==> p == ps[0] || p in ps[1..];
      if filter == ShowAll || ps[0].category == filter then [ps[0]] + rest else rest
  }

  /** Filtering a catalogue in two parts and joining the results is filtering
      the whole: together with the one-card case this fixes the result card by
      card, so the shown cards keep catalogue order and repetitions. */
  lemma {:induction false} FilterProductsAppend(a: seq<CatalogEntry>, b: seq<CatalogEntry>, filter: string)
    decreases |a|
    ensures FilterProducts(a + b, filter) == FilterProducts(a, filter) + FilterProducts(b, filter)
  {
    if |a| == 0 {
      assert a + b == b;
    } else {
      assert (a + b)[0] == a[0];
      assert (a + b)[1..] == a[1..] + b;
      FilterProductsAppend(a[1..], b, filter);
    }
  }
}

=== FILE: catalog.dfy ===
/** The product endpoints: create, list, read, update and delete. Writes are
    admin-gated: the gate runs before the handler body. */
module Catalog {
  import opened Wrappers
  import opened Errors
  import opened Tables
  import opened Models
  import opened Schemas
  import opened Auth

  /** The row a create request produces under key `id`: unset optional
      fields take their defaults (no description, no image, available). */
  function NewProduct(id: int, req: ProductCreate): (p: Product)
    ensures p.id == id && p.name == req.name && p.price == req.price
    ensures p.description == req.description.Or(None)
    ensures p.imageUrl == req.imageUrl.Or(None)
    ensures req.isAvailable.Unset? ==> p.isAvailable
    ensures req.isAvailable.Given? ==> p.isAvailable == req.isAvailable.value
  {
    Product(id, req.name, req.description.Or(None), req.price, req.imageUrl.Or(None),
            req.isAvailable.Or(DefaultIsAvailable))
  }

  /** `create_product`: after the admin gate, insert the row; a name already
      in use violates the unique column and the commit fails (an uncaught 500). */
  function CreateProduct(s: Store, b: Bearer, req: ProductCreate): (r: Result<Reply<Product>, Error>)
    requires s.users.WellFormed() && s.products.WellFormed()
    ensures CurrentAdminUser(s, b).Failure? ==> r == Failure(CurrentAdminUser(s, b).error)
    ensures CurrentAdminUser(s, b).Success? && ProductNameInUse(s.products.rows, req.name, None) ==>
              r == Failure(IntegrityError)
    ensures r.Success? <==> CurrentAdminUser(s, b).Success? && !ProductNameInUse(s.products.rows, req.name, None)
    ensures r.Success? ==>
              var p := r.value.body;
              var s' := r.value.store;
              && p.id !in s.products.rows
              && p == NewProduct(p.id, req)
              && s'.products.rows == s.products.rows[p.id := p]
              && s'.products.WellFormed()
              && s' == s.(products := s'.products)
  {
    var _ :- CurrentAdminUser(s, b);
    if ProductNameInUse(s.products.rows, req.name, None) then
      Failure(IntegrityError)
    else
      var p := NewProduct(s.products.next, req);
      Success(Reply(s.(products := s.products.Insert(p)), p))
  }

  /** `read_products` filters nothing. */
  function AnyProduct(): Product -> bool {
    (p: Product) => true
  }

  /** `read_products`: one page of all products, in the model's scan order. */
  function ListProducts(s: Store, skip: nat, limit: nat): (r: seq<Product>)
    requires s.products.WellFormed()
    ensures |r| <= limit
    ensures forall p :: p in r ==> p in s.products.rows.Values
    ensures IdsMatch(s) ==> forall i, j :: 0 <= i < j < |r| ==> r[i].id < r[j].id
    ensures skip == 0 && |s.products.rows| <= limit ==> forall k :: k in s.products.rows ==> s.products.rows[k] in r
  {
    var ks := Query(s.products, AnyProduct(), skip, limit);
    var r := RowsAt(s.products.rows, ks);
    assert forall k :: k in ks ==> s.products.rows[k] in r by {
      forall k | k in ks ensures s.products.rows[k] in r {
        var i :| 0 <= i < |ks| && ks[i] == k;
        assert r[i] == s.products.rows[k];
      }
    }
    r
  }

  /** How many rows a page of `ListProducts` holds and which: `min(limit, max(0, n - skip))`
      of the `n` matches, namely those with between `skip` and `skip + limit - 1`
      matches before them in the model's scan order. */
  lemma ListProductsPage(s: Store, skip: nat, limit: nat)
    requires s.products.WellFormed()
    ensures |ListProducts(s, skip, limit)| == PageSize(|s.products.rows|, skip, limit)
    ensures forall k :: k in s.products.rows && skip <= Rank(s.products.rows, AnyProduct(), k) < skip + limit ==>
              s.products.rows[k] in ListProducts(s, skip, limit)
    ensures IdsMatch(s) ==> forall k :: k in s.products.rows && s.products.rows[k] in ListProducts(s, skip, limit) ==>
              skip <= Rank(s.products.rows, AnyProduct(), k) < skip + limit
  {
    RowsOfPage(s.products, AnyProduct(), skip, limit);
    MatchesAll(s.products.rows, AnyProduct());
    assert IdsMatch(s) ==> Injective(s.products.rows);
  }

  /** `read_product`: the row, or 404. */
  function ReadProduct(s: Store, id: int): (r: Result<Product, Error>)
    ensures r.Success? <==> id in s.products.rows
    ensures r.Success? ==> r.value == s.products.rows[id]
    ensures r.Failure? ==> r.error == ProductNotFound(id) && r.error.Status() == 404
  {
    if id in s.products.rows then Success(s.products.rows[id]) else Failure(ProductNotFound(id))
  }

  /** `setattr` for each field the request explicitly set. Name and price are
      required, so they are always set; an optional field left out keeps its
      stored value. */
  function Patch(p: Product, req: ProductCreate): (q: Product)
    ensures q.id == p.id && q.name == req.name && q.price == req.price
    ensures q.description == (if req.description.Given? then req.description.value else p.description)
    ensures q.imageUrl == (if req.imageUrl.Given? then req.imageUrl.value else p.imageUrl)
    ensures q.isAvailable == (if req.isAvailable.Given? then req.isAvailable.value else p.isAvailable)
  {
    Product(p.id, req.name, req.description.Or(p.description), req.price,
            req.imageUrl.Or(p.imageUrl), req.isAvailable.Or(p.isAvailable))
  }

  /** Applying the same update twice changes nothing more. */
  lemma PatchIdempotent(p: Product, req: ProductCreate)
    ensures Patch(Patch(p, req), req) == Patch(p, req)
  {
  }

  /** An update that sets every field yields the row a create would have produced. */
  lemma PatchAllFieldsIsCreate(p: Product, req: ProductCreate)
    requires req.description.Given? && req.imageUrl.Given? && req.isAvailable.Given?
    ensures Patch(p, req) == NewProduct(p.id, req)
  {
  }

  /** `update_product`: after the admin gate, 404 for an absent id; otherwise
      overwrite the fields the request set. Renaming onto another product's
      name fails the commit (500). Nothing but that one row changes. */
  function UpdateProduct(s: Store, b: Bearer, id: int, req: ProductCreate): (r: Result<Reply<Product>, Error>)
    requires s.users.WellFormed() && s.products.WellFormed()
    ensures CurrentAdminUser(s, b).Failure? ==> r == Failure(CurrentAdminUser(s, b).error)
    ensures CurrentAdminUser(s, b).Success? && id !in s.products.rows ==> r == Failure(ProductNotFound(id))
    ensures CurrentAdminUser(s, b).Success? && id in s.products.rows && ProductNameInUse(s.products.rows, req.name, Some(id)) ==>
              r == Failure(IntegrityError)
    ensures r.Success? <==> CurrentAdminUser(s, b).Success? && id in s.products.rows
                            && !ProductNameInUse(s.products.rows, req.name, Some(id))
    ensures r.Success? ==>
              var s' := r.value.store;
              && r.value.body == Patch(s.products.rows[id], req)
              && s'.products == Table(s.products.rows[id := r.value.body], s.products.next)
              && s' == s.(products := s'.products)
  {
    var _ :- CurrentAdminUser(s, b);
    if id !in s.products.rows then Failure(ProductNotFound(id))
    else
      var q := Patch(s.products.rows[id], req);
      if ProductNameInUse(s.products.rows, req.name, Some(id)) then Failure(IntegrityError)
      else
        Success(Reply(s.(products := Table(s.products.rows[id := q], s.products.next)), q))
  }

  /** What deleting product `id` does to the reviews: the ORM nulls the
      `product_id` of each review of that product, and keeps every other review. */
  function DetachReviews(reviews: map<int, Review>, id: int): (r: map<int, Review>)
    ensures r.Keys == reviews.Keys
    ensures forall k :: k in reviews && reviews[k].productId == Some(id) ==>
              r[k] == reviews[k].(productId := None)
    ensures forall k :: k in reviews && reviews[k].productId != Some(id) ==> r[k] == reviews[k]
  {
    map k | k in reviews :: if reviews[k].productId == Some(id) then reviews[k].(productId := None) else reviews[k]
  }

  /** Some order item refers to product `id`. */
  predicate Ordered(s: Store, id: int) {
    exists k :: k in s.items.rows && s.items.rows[k].productId == id
  }

  /** `delete_product`: after the admin gate, 404 for an absent id. Order items
      keep a non-null reference to their product, so deleting an ordered
      product fails the commit (500); otherwise the row goes and its reviews
      lose their product reference. */
  function DeleteProduct(s: Store, b: Bearer, id: int): (r: Result<Store, Error>)
    requires s.users.WellFormed()
    ensures CurrentAdminUser(s, b).Failure? ==> r == Failure(CurrentAdminUser(s, b).error)
    ensures CurrentAdminUser(s, b).Success? && id !in s.products.rows ==> r == Failure(ProductNotFound(id))
    ensures CurrentAdminUser(s, b).Success? && id in s.products.rows && Ordered(s, id) ==>
              r == Failure(IntegrityError)
    ensures r.Success? <==> CurrentAdminUser(s, b).Success? && id in s.products.rows && !Ordered(s, id)
    ensures r.Success? ==>
              && r.value.products == Table(s.products.rows - {id}, s.products.next)
              && r.value.reviews == Table(DetachReviews(s.reviews.rows, id), s.reviews.next)
              && r.value == s.(products := r.value.products, reviews := r.value.reviews)
  {
    var _ :- CurrentAdminUser(s, b);
    if id !in s.products.rows then Failure(ProductNotFound(id))
    else if Ordered(s, id) then Failure(IntegrityError)
    else
      Success(s.(products := Table(s.products.rows - {id}, s.products.next),
                 reviews := Table(DetachReviews(s.reviews.rows, id), s.reviews.next)))
  }
}

=== FILE: errors.dfy ===
/** The HTTP errors the backend raises, each tagged with its status code. */
module Errors {

  datatype Error =
    // 400: a registration conflict or a request the handler itself rejects
    | UsernameTaken
    | EmailTaken
    | InvalidQuantity(productId: int)
    | InvalidStatus(status: string)
      // 401: no bearer token, a token that does not decode, or a failed login
    | NotAuthenticated
    | InvalidCredentials
    | IncorrectCredentials
      // 403: authenticated but not an administrator
    | NotAdmin
      // 404: a referenced row is missing
    | TokenUserNotFound
    | UserNotFound(userId: int)
    | ProductNotFound(productId: int)
    | ReviewNotFound(reviewId: int)
    | OrderNotFound(orderId: int)
      // 500: a database constraint violation the handlers do not catch
    | IntegrityError
      // 500: an exception raised inside a handler body while building its error
    | InternalError
  {
    /** The HTTP status code the client receives. */
    function Status(): int {
      match this
      case UsernameTaken | EmailTaken | InvalidQuantity(_) | InvalidStatus(_) => 400
      case NotAuthenticated | InvalidCredentials | IncorrectCredentials => 401
      case NotAdmin => 403
      case TokenUserNotFound | UserNotFound(_) | ProductNotFound(_)
        | ReviewNotFound(_) | OrderNotFound(_) => 404
      case IntegrityError | InternalError => 500
    }
  }
}

=== FILE: invariants.dfy ===
/** Every write endpoint keeps the database invariant (keys, unique columns,
    foreign keys, the cascade), and with validated bodies also the
    value-level rules the request schemas guarantee. */
module StoreInvariants {
  import opened Wrappers
  import opened Errors
  import opened Tables
  import opened Models
  import opened Schemas
  import opened Auth
  import Accounts
  import Catalog
  import Reviews
  import Orders

  /** The write requests the backend serves, with what each handler receives. */
  datatype Request =
    | Register(h: Hasher, salt: Salt, user: UserCreate)
    | CreateProduct(b: Bearer, product: ProductCreate)
    | UpdateProduct(b: Bearer, productId: int, product: ProductCreate)
    | DeleteProduct(b: Bearer, productId: int)
    | CreateReview(review: ReviewCreate, now: int)
    | DeleteReview(b: Bearer, reviewId: int)
    | CreateOrder(order: OrderCreate, now: int)
    | UpdateOrderStatus(b: Bearer, orderId: int, status: string)
    | DeleteOrder(b: Bearer, orderId: int)

  /** The body passed the request validator. */
  predicate ValidRequest(r: Request) {
    match r
    case Register(_, _, u) => ValidUserCreate(u)
    case CreateProduct(_, p) => ValidProductCreate(p)
    case UpdateProduct(_, _, p) => ValidProductCreate(p)
    case CreateReview(v, _) => ValidReviewCreate(v)
    case CreateOrder(o, _) => ValidOrderCreate(o)
    case _ => true
  }

  /** The database after a handler that answers with a body. */
  function After<T>(s: Store, r: Result<Reply<T>, Error>): Store {
    if r.Success? then r.value.store else s
  }

  /** The database after a handler that answers with no body. */
  function AfterDelete(s: Store, r: Result<Store, Error>): Store {
    if r.Success? then r.value else s
  }

  /** The database after serving `r`: the handler's new store on success,
      the old one on any error. */
  function Handle(s: Store, r: Request): Store
    requires Inv(s)
  {
    match r
    case Register(h, salt, u) => After(s, Accounts.Register(s, h, salt, u))
    case CreateProduct(b, p) => After(s, Catalog.CreateProduct(s, b, p))
    case UpdateProduct(b, id, p) => After(s, Catalog.UpdateProduct(s, b, id, p))
    case DeleteProduct(b, id) => AfterDelete(s, Catalog.DeleteProduct(s, b, id))
    case CreateReview(v, now) => After(s, Reviews.CreateReview(s, v, now))
    case DeleteReview(b, id) => AfterDelete(s, Reviews.DeleteReview(s, b, id))
    case CreateOrder(o, now) => After(s, Orders.CreateOrder(s, o, now))
    case UpdateOrderStatus(b, id, st) => After(s, Orders.UpdateOrderStatus(s, b, id, st))
    case DeleteOrder(b, id) => AfterDelete(s, Orders.DeleteOrder(s, b, id))
  }

  // ---- per-handler preservation ---------------------------------------------

  /** Adding a user whose username and e-mail are both free keeps both columns unique. */
  lemma InsertFreshUserKeepsUnique(users: map<int, User>, id: int, u: User)
    requires id !in users
    requires UniqueUsernames(users) && UniqueEmails(users)
    requires !UsernameInUse(users, u.username) && !EmailInUse(users, u.email)
    ensures UniqueUsernames(users[id := u]) && UniqueEmails(users[id := u])
  {
    assert forall k :: k in users ==> users[k].username != u.username && users[k].email != u.email;
  }

  lemma RegisterKeepsInv(s: Store, h: Hasher, salt: Salt, u: UserCreate)
    requires Inv(s)
    ensures Inv(After(s, Accounts.Register(s, h, salt, u)))
  {
    if Accounts.Register(s, h, salt, u).Success? {
      var rep := Accounts.Register(s, h, salt, u).value;
      var s' := rep.store;
      InsertFreshUserKeepsUnique(s.users.rows, rep.body.id, rep.body);
      assert s'.users.rows == s.users.rows[rep.body.id := rep.body];
      assert s' == s.(users := s'.users);
      assert TablesWellFormed(s');
      assert IdsMatch(s');
      assert ReviewRefs(s') && OrderRefs(s') && ItemRefs(s');
    }
  }

  /** Storing a product under a fresh key, with a name no other row has, keeps the invariant. */
  lemma InsertFreshProductKeepsInv(s: Store, t: Table<Product>, p: Product)
    requires Inv(s) && t.WellFormed()
    requires p.id !in s.products.rows && t.rows == s.products.rows[p.id := p]
    requires !ProductNameInUse(s.products.rows, p.name, None)
    ensures Inv(s.(products := t))
  {
    assert forall k :: k in s.products.rows ==> s.products.rows[k].name != p.name;
  }

  lemma CreateProductKeepsInv(s: Store, b: Bearer, p: ProductCreate)
    requires Inv(s)
    ensures Inv(After(s, Catalog.CreateProduct(s, b, p)))
  {
    if Catalog.CreateProduct(s, b, p).Success? {
      var rep := Catalog.CreateProduct(s, b, p).value;
      InsertFreshProductKeepsInv(s, rep.store.products, rep.body);
    }
  }

  /** Rewriting product `id` in place, under a name no other row has, keeps the invariant. */
  lemma ReplaceProductKeepsInv(s: Store, id: int, p: Product)
    requires Inv(s) && id in s.products.rows && p.id == id
    requires !ProductNameInUse(s.products.rows, p.name, Some(id))
    ensures Inv(s.(products := Table(s.products.rows[id := p], s.products.next)))
  {
    assert forall k :: k in s.products.rows && k != id ==> s.products.rows[k].name != p.name;
  }

  lemma UpdateProductKeepsInv(s: Store, b: Bearer, id: int, p: ProductCreate)
    requires Inv(s)
    ensures Inv(After(s, Catalog.UpdateProduct(s, b, id, p)))
  {
    if Catalog.UpdateProduct(s, b, id, p).Success? {
      ReplaceProductKeepsInv(s, id, Catalog.UpdateProduct(s, b, id, p).value.body);
    }
  }

  /** Removing a product nobody ordered, and detaching its reviews, keeps the invariant. */
  lemma RemoveProductKeepsInv(s: Store, id: int)
    requires Inv(s) && !Catalog.Ordered(s, id)
    ensures Inv(s.(products := Table(s.products.rows - {id}, s.products.next),
                   reviews := Table(Catalog.DetachReviews(s.reviews.rows, id), s.reviews.next)))
  {
    var s' := s.(products := Table(s.products.rows - {id}, s.products.next),
                 reviews := Table(Catalog.DetachReviews(s.reviews.rows, id), s.reviews.next));
    forall k | k in s'.reviews.rows
      ensures Truthy(s'.reviews.rows[k].productId) ==> s'.reviews.rows[k].productId.value in s'.products.rows
    {
      if s.reviews.rows[k].productId == Some(id) {
        assert s'.reviews.rows[k].productId == None;
      } else {
        assert s'.reviews.rows[k] == s.reviews.rows[k];
      }
    }
  }

  lemma DeleteProductKeepsInv(s: Store, b: Bearer, id: int)
    requires Inv(s)
    ensures Inv(AfterDelete(s, Catalog.DeleteProduct(s, b, id)))
  {
    if Catalog.DeleteProduct(s, b, id).Success? {
      RemoveProductKeepsInv(s, id);
    }
  }

  lemma CreateReviewKeepsInv(s: Store, v: ReviewCreate, now: int)
    requires Inv(s)
    ensures Inv(After(s, Reviews.CreateReview(s, v, now)))
  {
    if Reviews.CreateReview(s, v, now).Success? {
      var rep := Reviews.CreateReview(s, v, now).value;
      var s' := rep.store;
      assert s' == s.(reviews := s'.reviews);
      assert s'.reviews.rows == s.reviews.rows[rep.body.id := rep.body];
      assert TablesWellFormed(s') && IdsMatch(s');
      assert ReviewRefs(s');
    }
  }

  lemma DeleteReviewKeepsInv(s: Store, b: Bearer, id: int)
    requires Inv(s)
    ensures Inv(AfterDelete(s, Reviews.DeleteReview(s, b, id)))
  {
    if Reviews.DeleteReview(s, b, id).Success? {
      var s' := Reviews.DeleteReview(s, b, id).value;
      assert s' == s.(reviews := Table(s'.reviews.rows, s.reviews.next));
      assert TablesWellFormed(s') && IdsMatch(s');
      assert ReviewRefs(s');
    }
  }

  /** The items an order placement writes keep their keys, and point at the
      new order and at existing products. */
  lemma PlacedItemsKeepRefs(before: map<int, OrderItem>, after: map<int, OrderItem>, start: int, orderId: int,
                            lines: seq<OrderLine>, products: map<int, Product>, orders: map<int, Order>)
    requires Orders.PlacedItems(before, after, start, orderId, lines, products)
    requires orderId in orders
    requires forall k :: k in before ==> before[k].id == k && before[k].orderId in orders && before[k].productId in products
    ensures forall k :: k in after ==> after[k].id == k && after[k].orderId in orders && after[k].productId in products
  {
    forall k | k in after
      ensures after[k].id == k && after[k].orderId in orders && after[k].productId in products
    {
      if k !in before {
        var i := k - start;
        assert 0 <= i < |lines| && k == start + i;
        assert after[start + i] == OrderItem(start + i, orderId, lines[i].productId, lines[i].quantity,
                                             products[lines[i].productId].price);
      }
    }
  }

  lemma CreateOrderKeepsInv(s: Store, o: OrderCreate, now: int)
    requires Inv(s)
    ensures Inv(After(s, Orders.CreateOrder(s, o, now)))
  {
    if Orders.CreateOrder(s, o, now).Success? {
      var rep := Orders.CreateOrder(s, o, now).value;
      var s' := rep.store;
      assert s' == s.(orders := s'.orders, items := s'.items);
      assert s'.orders.rows == s.orders.rows[rep.body.id := rep.body];
      PlacedItemsKeepRefs(s.items.rows, s'.items.rows, s.items.next, rep.body.id, o.items,
                          s.products.rows, s'.orders.rows);
      assert TablesWellFormed(s');
      assert IdsMatch(s');
      assert ReviewRefs(s') && OrderRefs(s') && ItemRefs(s');
    }
  }

  /** Rewriting order `id` in place without touching its owner keeps the invariant. */
  lemma ReplaceOrderKeepsInv(s: Store, id: int, o: Order)
    requires Inv(s) && id in s.orders.rows && o.id == id && o.userId == s.orders.rows[id].userId
    ensures Inv(s.(orders := Table(s.orders.rows[id := o], s.orders.next)))
  {
    assert (s.orders.rows[id := o]).Keys == s.orders.rows.Keys;
  }

  lemma UpdateOrderStatusKeepsInv(s: Store, b: Bearer, id: int, st: string)
    requires Inv(s)
    ensures Inv(After(s, Orders.UpdateOrderStatus(s, b, id, st)))
  {
    if Orders.UpdateOrderStatus(s, b, id, st).Success? {
      ReplaceOrderKeepsInv(s, id, Orders.UpdateOrderStatus(s, b, id, st).value.body);
    }
  }

  /** Removing an order together with every item that points at it keeps the invariant. */
  lemma RemoveOrderKeepsInv(s: Store, id: int)
    requires Inv(s)
    ensures Inv(s.(orders := Table(s.orders.rows - {id}, s.orders.next),
                   items := Table(Orders.ItemsWithout(s.items.rows, id), s.items.next)))
  {
  }

  lemma DeleteOrderKeepsInv(s: Store, b: Bearer, id: int)
    requires Inv(s)
    ensures Inv(AfterDelete(s, Orders.DeleteOrder(s, b, id)))
  {
    if Orders.DeleteOrder(s, b, id).Success? {
      var s' := Orders.DeleteOrder(s, b, id).value;
      RemoveOrderKeepsInv(s, id);
      assert s' == s.(orders := Table(s.orders.rows - {id}, s.orders.next),
                      items := Table(Orders.ItemsWithout(s.items.rows, id), s.items.next));
    }
  }

  /** Whatever request arrives, the invariant still holds afterwards. */
  lemma HandleKeepsInv(s: Store, r: Request)
    requires Inv(s)
    ensures Inv(Handle(s, r))
  {
    match r
    case Register(h, salt, u) =>
      RegisterKeepsInv(s, h, salt, u);
    case CreateProduct(b, p) =>
      CreateProductKeepsInv(s, b, p);
    case UpdateProduct(b, id, p) =>
      UpdateProductKeepsInv(s, b, id, p);
    case DeleteProduct(b, id) =>
      DeleteProductKeepsInv(s, b, id);
    case CreateReview(v, now) =>
      CreateReviewKeepsInv(s, v, now);
    case DeleteReview(b, id) =>
      DeleteReviewKeepsInv(s, b, id);
    case CreateOrder(o, now) =>
      CreateOrderKeepsInv(s, o, now);
    case UpdateOrderStatus(b, id, st) =>
      UpdateOrderStatusKeepsInv(s, b, id, st);
    case DeleteOrder(b, id) =>
      DeleteOrderKeepsInv(s, b, id);
  }

  // ---- value-level rules ------------------------------------------------------

  /** A stored user keeps the registration schema's bounds: username 3..50
      characters, full name at most 100. */
  predicate UserOk(u: User) {
    && 3 <= |u.username| <= 50
    && (u.fullName.Some? ==> |u.fullName.value| <= 100)
  }

  /** A stored product keeps the product schema's bounds: name 1..100
      characters, description at most 500, price strictly positive. */
  predicate ProductOk(p: Product) {
    && 1 <= |p.name| <= 100
    && (p.description.Some? ==> |p.description.value| <= 500)
    && p.price > 0
  }

  /** A stored review keeps the review schema's bounds. */
  predicate ReviewOk(r: Review) {
    && 1 <= r.rating <= 5
    && 1 <= |r.comment| <= 500
  }

  /** A stored order has one of the four statuses, a positive total and
      non-empty shipping, payment and recipient fields. */
  predicate OrderOk(o: Order) {
    && o.status in Orders.ValidStatuses
    && o.totalAmount > 0
    && |o.shippingAddress| >= 1
    && |o.paymentMethod| >= 1
    && |o.recipientName| >= 1
    && |o.recipientPhone| >= 1
  }

  /** A stored order item has a positive quantity and a positive snapshot price. */
  predicate ItemOk(i: OrderItem) {
    i.quantity > 0 && i.priceAtOrder > 0
  }

  /** What the request schemas and the handlers' own checks guarantee about
      every stored row. */
  predicate DataInv(s: Store) {
    && (forall k :: k in s.users.rows ==> UserOk(s.users.rows[k]))
    && (forall k :: k in s.products.rows ==> ProductOk(s.products.rows[k]))
    && (forall k :: k in s.reviews.rows ==> ReviewOk(s.reviews.rows[k]))
    && (forall k :: k in s.orders.rows ==> OrderOk(s.orders.rows[k]))
    && (forall k :: k in s.items.rows ==> ItemOk(s.items.rows[k]))
  }

  /** Placing an order writes positive quantities and positive snapshot prices. */
  lemma PlacedItemsPositive(before: map<int, OrderItem>, after: map<int, OrderItem>, start: int, orderId: int,
                            lines: seq<OrderLine>, products: map<int, Product>)
    requires Orders.PlacedItems(before, after, start, orderId, lines, products)
    requires forall i :: 0 <= i < |lines| ==> lines[i].quantity > 0
    requires forall k :: k in products ==> ProductOk(products[k])
    requires forall k :: k in before ==> ItemOk(before[k])
    ensures forall k :: k in after ==> ItemOk(after[k])
  {
    forall k | k in after
      ensures ItemOk(after[k])
    {
      if k !in before {
        var i := k - start;
        assert 0 <= i < |lines| && k == start + i;
        assert lines[i].productId in products;
        assert after[start + i] == OrderItem(start + i, orderId, lines[i].productId, lines[i].quantity,
                                             products[lines[i].productId].price);
      }
    }
  }

  lemma RegisterKeepsDataInv(s: Store, h: Hasher, salt: Salt, u: UserCreate)
    requires Inv(s) && DataInv(s) && ValidUserCreate(u)
    ensures DataInv(After(s, Accounts.Register(s, h, salt, u)))
  {
    var res := Accounts.Register(s, h, salt, u);
    if res.Success? {
      var s' := res.value.store;
      assert UserOk(res.value.body);
      assert s' == s.(users := s'.users);
      assert s'.users.rows == s.users.rows[res.value.body.id := res.value.body];
    }
  }

  lemma CreateProductKeepsDataInv(s: Store, b: Bearer, p: ProductCreate)
    requires Inv(s) && DataInv(s) && ValidProductCreate(p)
    ensures DataInv(After(s, Catalog.CreateProduct(s, b, p)))
  {
    var res := Catalog.CreateProduct(s, b, p);
    if res.Success? {
      var s' := res.value.store;
      assert ProductOk(res.value.body);
      assert s' == s.(products := s'.products);
      assert s'.products.rows == s.products.rows[res.value.body.id := res.value.body];
    }
  }

  lemma UpdateProductKeepsDataInv(s: Store, b: Bearer, id: int, p: ProductCreate)
    requires Inv(s) && DataInv(s) && ValidProductCreate(p)
    ensures DataInv(After(s, Catalog.UpdateProduct(s, b, id, p)))
  {
    var res := Catalog.UpdateProduct(s, b, id, p);
    if res.Success? {
      var s' := res.value.store;
      assert ProductOk(s.products.rows[id]);
      assert ProductOk(res.value.body);
      assert s' == s.(products := Table(s.products.rows[id := res.value.body], s.products.next));
    }
  }

  /** Detaching reviews leaves their ratings and comments as they were. */
  lemma RemoveProductKeepsDataInv(s: Store, id: int)
    requires DataInv(s)
    ensures DataInv(s.(products := Table(s.products.rows - {id}, s.products.next),
                       reviews := Table(Catalog.DetachReviews(s.reviews.rows, id), s.reviews.next)))
  {
    var detached := Catalog.DetachReviews(s.reviews.rows, id);
    forall k | k in detached
      ensures ReviewOk(detached[k])
    {
      assert ReviewOk(s.reviews.rows[k]);
    }
  }

  lemma DeleteProductKeepsDataInv(s: Store, b: Bearer, id: int)
    requires Inv(s) && DataInv(s)
    ensures DataInv(AfterDelete(s, Catalog.DeleteProduct(s, b, id)))
  {
    if Catalog.DeleteProduct(s, b, id).Success? {
      RemoveProductKeepsDataInv(s, id);
    }
  }

  lemma CreateReviewKeepsDataInv(s: Store, v: ReviewCreate, now: int)
    requires Inv(s) && DataInv(s) && ValidReviewCreate(v)
    ensures DataInv(After(s, Reviews.CreateReview(s, v, now)))
  {
    var res := Reviews.CreateReview(s, v, now);
    if res.Success? {
      var s' := res.value.store;
      assert ReviewOk(res.value.body);
      assert s' == s.(reviews := s'.reviews);
      assert s'.reviews.rows == s.reviews.rows[res.value.body.id := res.value.body];
    }
  }

  lemma DeleteReviewKeepsDataInv(s: Store, b: Bearer, id: int)
    requires Inv(s) && DataInv(s)
    ensures DataInv(AfterDelete(s, Reviews.DeleteReview(s, b, id)))
  {
    var res := Reviews.DeleteReview(s, b, id);
    if res.Success? {
      assert res.value == s.(reviews := Table(res.value.reviews.rows, s.reviews.next));
    }
  }

  lemma CreateOrderKeepsDataInv(s: Store, o: OrderCreate, now: int)
    requires Inv(s) && DataInv(s) && ValidOrderCreate(o)
    ensures DataInv(After(s, Orders.CreateOrder(s, o, now)))
  {
    var res := Orders.CreateOrder(s, o, now);
    if res.Success? {
      var s' := res.value.store;
      var order := res.value.body;
      assert s' == s.(orders := s'.orders, items := s'.items);
      assert s'.orders.rows == s.orders.rows[order.id := order];
      assert order.status == DefaultOrderStatus && DefaultOrderStatus in Orders.ValidStatuses;
      assert OrderOk(order);
      assert forall i :: 0 <= i < |o.items| ==> Orders.LineOk(s.products.rows, o.items[i]);
      PlacedItemsPositive(s.items.rows, s'.items.rows, s.items.next, order.id, o.items, s.products.rows);
    }
  }

  lemma UpdateOrderStatusKeepsDataInv(s: Store, b: Bearer, id: int, st: string)
    requires Inv(s) && DataInv(s)
    ensures DataInv(After(s, Orders.UpdateOrderStatus(s, b, id, st)))
  {
    var res := Orders.UpdateOrderStatus(s, b, id, st);
    if res.Success? {
      var o := res.value.body;
      assert OrderOk(s.orders.rows[id]);
      assert o == s.orders.rows[id].(status := st) && st in Orders.ValidStatuses;
      assert OrderOk(o);
      assert res.value.store == s.(orders := Table(s.orders.rows[id := o], s.orders.next));
    }
  }

  lemma DeleteOrderKeepsDataInv(s: Store, b: Bearer, id: int)
    requires Inv(s) && DataInv(s)
    ensures DataInv(AfterDelete(s, Orders.DeleteOrder(s, b, id)))
  {
    var res := Orders.DeleteOrder(s, b, id);
    if res.Success? {
      assert res.value == s.(orders := Table(res.value.orders.rows, s.orders.next),
                             items := Table(res.value.items.rows, s.items.next));
    }
  }

  /** Whatever validated request arrives, every stored row still meets the
      schema bounds it was written under. */
  lemma HandleKeepsDataInv(s: Store, r: Request)
    requires Inv(s) && DataInv(s) && ValidRequest(r)
    ensures DataInv(Handle(s, r))
  {
    match r
    case Register(h, salt, u) => RegisterKeepsDataInv(s, h, salt, u);
    case CreateProduct(b, p) => CreateProductKeepsDataInv(s, b, p);
    case UpdateProduct(b, id, p) => UpdateProductKeepsDataInv(s, b, id, p);
    case DeleteProduct(b, id) => DeleteProductKeepsDataInv(s, b, id);
    case CreateReview(v, now) => CreateReviewKeepsDataInv(s, v, now);
    case DeleteReview(b, id) => DeleteReviewKeepsDataInv(s, b, id);
    case CreateOrder(o, now) => CreateOrderKeepsDataInv(s, o, now);
    case UpdateOrderStatus(b, id, st) => UpdateOrderStatusKeepsDataInv(s, b, id, st);
    case DeleteOrder(b, id) => DeleteOrderKeepsDataInv(s, b, id);
  }
}

=== FILE: models.dfy ===
/** The five tables of the backend and the rules the schema imposes on them:
    unique columns, defaults, foreign keys and the order-item cascade. */
module Models {
  import opened Wrappers
  import opened Tables

  /** A `users` row. `hashedPassword` holds the output of the password hasher. */
  datatype User = User(
    id: int,
    username: string,
    email: string,
    hashedPassword: string,
    fullName: Option<string>,
    isAdmin: bool)

  /** A `products` row. Prices are kept as integers: the backend only copies them. */
  datatype Product = Product(
    id: int,
    name: string,
    description: Option<string>,
    price: int,
    imageUrl: Option<string>,
    isAvailable: bool)

  /** A `reviews` row. `userId` is required, `productId` is nullable;
      `createdAt` is the server's clock at insertion. */
  datatype Review = Review(
    id: int,
    userId: int,
    productId: Option<int>,
    rating: int,
    comment: string,
    createdAt: int)

  /** An `orders` row. `status` is a free string column. */
  datatype Order = Order(
    id: int,
    userId: int,
    totalAmount: int,
    status: string,
    shippingAddress: string,
    paymentMethod: string,
    recipientName: string,
    recipientPhone: string,
    createdAt: int)

  /** An `order_items` row: every column is required, and `priceAtOrder`
      is the product's price when the order was placed. */
  datatype OrderItem = OrderItem(
    id: int,
    orderId: int,
    productId: int,
    quantity: int,
    priceAtOrder: int)

  /** Column default of `users.is_admin`. */
  const DefaultIsAdmin := false
  /** Column default of `products.is_available`. */
  const DefaultIsAvailable := true
  /** Column default of `orders.status`. */
  const DefaultOrderStatus := "pending"

  /** The whole database. */
  datatype Store = Store(
    users: Table<User>,
    products: Table<Product>,
    reviews: Table<Review>,
    orders: Table<Order>,
    items: Table<OrderItem>)

  /** A successful write: the database after it, and the response body. */
  datatype Reply<T> = Reply(store: Store, body: T)

  function EmptyStore(): (s: Store)
    ensures Inv(s)
  {
    Store(EmptyTable(), EmptyTable(), EmptyTable(), EmptyTable(), EmptyTable())
  }

  // ---- row identity -------------------------------------------------------

  /** Every row carries the primary key it is stored under. */
  predicate IdsMatch(s: Store) {
    && (forall k :: k in s.users.rows ==> s.users.rows[k].id == k)
    && (forall k :: k in s.products.rows ==> s.products.rows[k].id == k)
    && (forall k :: k in s.reviews.rows ==> s.reviews.rows[k].id == k)
    && (forall k :: k in s.orders.rows ==> s.orders.rows[k].id == k)
    && (forall k :: k in s.items.rows ==> s.items.rows[k].id == k)
  }

  predicate TablesWellFormed(s: Store) {
    && s.users.WellFormed()
    && s.products.WellFormed()
    && s.reviews.WellFormed()
    && s.orders.WellFormed()
    && s.items.WellFormed()
  }

  // ---- unique columns -------------------------------------------------------

  /** `users.username` is unique. */
  predicate UniqueUsernames(users: map<int, User>) {
    forall a, b :: a in users && b in users && users[a].username == users[b].username ==> a == b
  }

  /** `users.email` is unique. */
  predicate UniqueEmails(users: map<int, User>) {
    forall a, b :: a in users && b in users && users[a].email == users[b].email ==> a == b
  }

  /** `products.name` is unique. */
  predicate UniqueProductNames(products: map<int, Product>) {
    forall a, b :: a in products && b in products && products[a].name == products[b].name ==> a == b
  }

  // ---- foreign keys ---------------------------------------------------------

  /** A Python truthiness test on an optional id: present and non-zero. */
  predicate Truthy(id: Option<int>) {
    id.Some? && id.value != 0
  }

  /** Each review's author exists; a truthy `productId` names an existing
      product (a zero id is stored without being checked). */
  predicate ReviewRefs(s: Store) {
    forall k :: k in s.reviews.rows ==>
      && s.reviews.rows[k].userId in s.users.rows
      && (Truthy(s.reviews.rows[k].productId) ==> s.reviews.rows[k].productId.value in s.products.rows)
  }

  /** Each order belongs to an existing user. */
  predicate OrderRefs(s: Store) {
    forall k :: k in s.orders.rows ==> s.orders.rows[k].userId in s.users.rows
  }

  /** No orphaned order items: each names an existing order and product. */
  predicate ItemRefs(s: Store) {
    forall k :: k in s.items.rows ==>
      s.items.rows[k].orderId in s.orders.rows && s.items.rows[k].productId in s.products.rows
  }

  /** The database invariant: the schema's keys, unique columns and foreign keys. */
  predicate Inv(s: Store) {
    && TablesWellFormed(s)
    && IdsMatch(s)
    && UniqueUsernames(s.users.rows)
    && UniqueEmails(s.users.rows)
    && UniqueProductNames(s.products.rows)
    && ReviewRefs(s)
    && OrderRefs(s)
    && ItemRefs(s)
  }

  // ---- lookups --------------------------------------------------------------

  /** `query(User).filter(User.username == name).first()`: the first user
      with that name in the model's scan order. */
  function UserByUsername(users: Table<User>, name: string): (r: Option<User>)
    requires users.WellFormed()
    ensures r.Some? ==> r.value in users.rows.Values && r.value.username == name
    ensures r.None? <==> forall k :: k in users.rows ==> users.rows[k].username != name
  {
    match FirstWhere(users.rows, users.Keys(), (u: User) => u.username == name)
    case None => None
    case Some(k) => Some(users.rows[k])
  }

  /** Some user already has this username. */
  predicate UsernameInUse(users: map<int, User>, name: string) {
    exists k :: k in users && users[k].username == name
  }

  /** Some user already has this e-mail address. */
  predicate EmailInUse(users: map<int, User>, email: string) {
    exists k :: k in users && users[k].email == email
  }

  /** Some product other than `except` already has this name. */
  predicate ProductNameInUse(products: map<int, Product>, name: string, except: Option<int>) {
    exists k :: k in products && products[k].name == name && Some(k) != except
  }

  /** `query(User).filter(User.email == email).first()`. */
  function UserByEmail(users: Table<User>, email: string): (r: Option<User>)
    requires users.WellFormed()
    ensures r.Some? ==> r.value in users.rows.Values && r.value.email == email
    ensures r.None? <==> !EmailInUse(users.rows, email)
  {
    match FirstWhere(users.rows, users.Keys(), (u: User) => u.email == email)
    case None => None
    case Some(k) => Some(users.rows[k])
  }

  /** The items that belong to the order `orderId` (the `Order.items` relationship). */
  function ItemsOf(s: Store, orderId: int): (r: seq<OrderItem>)
    requires s.items.WellFormed()
    ensures forall it :: it in r <==> it in s.items.rows.Values && it.orderId == orderId
    ensures (forall k :: k in s.items.rows ==> s.items.rows[k].orderId != orderId) ==> r == []
  {
    var ks := Select(s.items.rows, s.items.Keys(), (it: OrderItem) => it.orderId == orderId);
    SelectNone(s.items.rows, s.items.Keys(), (it: OrderItem) => it.orderId == orderId);
    var r := RowsAt(s.items.rows, ks);
    assert forall it :: it in s.items.rows.Values && it.orderId == orderId ==> it in r by {
      forall it | it in s.items.rows.Values && it.orderId == orderId
        ensures it in r
      {
        var k :| k in s.items.rows && s.items.rows[k] == it;
        assert k in s.items.Keys();
        assert k in ks;
        var i :| 0 <= i < |ks| && ks[i] == k;
        assert r[i] == it;
      }
    }
    r
  }
}

=== FILE: orders.dfy ===
/** The order endpoints: create (the two-phase validate-then-write transaction),
    list, read, status update and delete. */
module Orders {
  import opened Wrappers
  import opened Errors
  import opened Tables
  import opened Models
  import opened Schemas
  import opened Auth

  /** Orders are always placed for user 1: the handler does not consult the token. */
  const OrderOwner := 1

  /** The statuses `update_order_status` accepts, from any current status. */
  const ValidStatuses: seq<string> := ["pending", "processing", "completed", "cancelled"]

  // ---- validation phase -----------------------------------------------------

  /** A line passes validation: its product exists and its quantity is positive. */
  predicate LineOk(products: map<int, Product>, l: OrderLine) {
    l.productId in products && l.quantity > 0
  }

  /** The error a failing line raises: a missing product is reported before
      a bad quantity. */
  function LineError(products: map<int, Product>, l: OrderLine): (e: Error)
    requires !LineOk(products, l)
    ensures l.productId !in products ==> e == ProductNotFound(l.productId) && e.Status() == 404
    ensures l.productId in products ==> e == InvalidQuantity(l.productId) && e.Status() == 400
  {
    if l.productId !in products then ProductNotFound(l.productId) else InvalidQuantity(l.productId)
  }

  /** The index of the first line that fails validation, or `|lines|` when all pass. */
  function FirstBad(products: map<int, Product>, lines: seq<OrderLine>): (i: nat)
    ensures i <= |lines|
    ensures forall j :: 0 <= j < i ==> LineOk(products, lines[j])
    ensures i < |lines| ==> !LineOk(products, lines[i])
  {
    if |lines| == 0 then 0
    else if !LineOk(products, lines[0]) then 0
    else 1 + FirstBad(products, lines[1..])
  }

  /** The validation loop: check the lines in request order and stop at the
      first failure; on success, the product row read for each line (the
      `products_in_order` snapshot). */
  function ValidateLines(products: map<int, Product>, lines: seq<OrderLine>): (r: Result<map<int, Product>, Error>)
    ensures r.Failure? <==> FirstBad(products, lines) < |lines|
    ensures r.Failure? ==> r.error == LineError(products, lines[FirstBad(products, lines)])
    ensures r.Success? ==> forall i :: 0 <= i < |lines| ==>
              lines[i].productId in r.value && r.value[lines[i].productId] == products[lines[i].productId]
  {
    if |lines| == 0 then Success(map[])
    else
      var l := lines[0];
      if l.productId !in products then Failure(ProductNotFound(l.productId))
      else if l.quantity <= 0 then Failure(InvalidQuantity(l.productId))
      else
        var rest :- ValidateLines(products, lines[1..]);
        assert forall i :: 1 <= i < |lines| ==> lines[i] == lines[1..][i - 1];
        Success(rest[l.productId := products[l.productId]])
  }

  // ---- write phase ----------------------------------------------------------

  /** Insert one item per line, in request order, under the consecutive keys
      from `start`; each item's price is the one in the snapshot. */
  function AddItems(rows: map<int, OrderItem>, start: int, orderId: int, lines: seq<OrderLine>,
                    snapshot: map<int, Product>): (r: map<int, OrderItem>)
    requires forall i :: 0 <= i < |lines| ==> lines[i].productId in snapshot
    decreases |lines|
    ensures forall k :: k in r <==> k in rows || start <= k < start + |lines|
    ensures forall k :: k in rows && !(start <= k < start + |lines|) ==> r[k] == rows[k]
    ensures forall i :: 0 <= i < |lines| ==>
              r[start + i] == OrderItem(start + i, orderId, lines[i].productId,
                                        lines[i].quantity, snapshot[lines[i].productId].price)
  {
    if |lines| == 0 then rows
    else
      var l := lines[0];
      var item := OrderItem(start, orderId, l.productId, l.quantity, snapshot[l.productId].price);
      var r := AddItems(rows[start := item], start + 1, orderId, lines[1..], snapshot);
      assert forall i :: 0 <= i < |lines| ==>
               r[start + i] == OrderItem(start + i, orderId, lines[i].productId,
                                         lines[i].quantity, snapshot[lines[i].productId].price) by {
        forall i | 0 <= i < |lines|
          ensures r[start + i] == OrderItem(start + i, orderId, lines[i].productId,
                                            lines[i].quantity, snapshot[lines[i].productId].price)
        {
          if i > 0 {
            assert lines[i] == lines[1..][i - 1];
            assert start + i == (start + 1) + (i - 1);
          }
        }
      }
      r
  }

  /** The order header `create_order` writes under key `id`: owned by user 1,
      in the default status, with the request's total and delivery details. */
  function NewOrder(id: int, req: OrderCreate, now: int): (o: Order)
    ensures o.id == id && o.userId == OrderOwner && o.status == "pending"
    ensures o.totalAmount == req.totalAmount && o.createdAt == now
    ensures o.shippingAddress == req.shippingAddress && o.paymentMethod == req.paymentMethod
    ensures o.recipientName == req.recipientName && o.recipientPhone == req.recipientPhone
  {
    Order(id, OrderOwner, req.totalAmount, DefaultOrderStatus, req.shippingAddress,
          req.paymentMethod, req.recipientName, req.recipientPhone, now)
  }

  /** The item table after placing an order: every earlier row untouched, and
      one new row per request line under consecutive keys from `start`,
      carrying that line's product and quantity and the product's price. */
  ghost predicate PlacedItems(before: map<int, OrderItem>, after: map<int, OrderItem>, start: int,
                        orderId: int, lines: seq<OrderLine>, products: map<int, Product>) {
    && (forall k :: k in after <==> k in before || start <= k < start + |lines|)
    && (forall k :: k in before ==> after[k] == before[k])
    && (forall i :: 0 <= i < |lines| ==>
          && lines[i].productId in products
          && after[start + i] == OrderItem(start + i, orderId, lines[i].productId,
                                           lines[i].quantity, products[lines[i].productId].price))
  }

  /** The rows `AddItems` writes are a placement priced from `products`,
      when the snapshot agrees with it and the new keys lie above the old ones. */
  lemma AddItemsPlaced(before: map<int, OrderItem>, start: int, orderId: int, lines: seq<OrderLine>,
                       snapshot: map<int, Product>, products: map<int, Product>)
    requires forall i :: 0 <= i < |lines| ==>
               && lines[i].productId in snapshot && lines[i].productId in products
               && snapshot[lines[i].productId] == products[lines[i].productId]
    requires forall k :: k in before ==> k < start
    ensures PlacedItems(before, AddItems(before, start, orderId, lines, snapshot), start, orderId, lines, products)
  {
  }

  /** The write phase: the header, then the items, priced from the snapshot
      taken during validation. */
  function WriteOrder(s: Store, req: OrderCreate, now: int, snapshot: map<int, Product>): (r: Reply<Order>)
    requires s.orders.WellFormed() && s.items.WellFormed()
    requires forall i :: 0 <= i < |req.items| ==>
               && req.items[i].productId in snapshot && req.items[i].productId in s.products.rows
               && snapshot[req.items[i].productId] == s.products.rows[req.items[i].productId]
    ensures r.body == NewOrder(s.orders.next, req, now) && r.body.id !in s.orders.rows
    ensures r.store.orders.rows == s.orders.rows[r.body.id := r.body] && r.store.orders.WellFormed()
    ensures r.store.items.WellFormed()
    ensures PlacedItems(s.items.rows, r.store.items.rows, s.items.next, r.body.id, req.items, s.products.rows)
    ensures r.store == s.(orders := r.store.orders, items := r.store.items)
  {
    var o := NewOrder(s.orders.next, req, now);
    var rows := AddItems(s.items.rows, s.items.next, o.id, req.items, snapshot);
    AddItemsPlaced(s.items.rows, s.items.next, o.id, req.items, snapshot, s.products.rows);
    Reply(s.(orders := s.orders.Insert(o), items := Table(rows, s.items.next + |req.items|)), o)
  }

  /** `create_order`: 404 unless user 1 exists; then validate every line in
      order, failing on the first bad one; only then write the header and one
      item per line, duplicates included. `total_amount` is copied from the
      request, never recomputed. */
  function CreateOrder(s: Store, req: OrderCreate, now: int): (r: Result<Reply<Order>, Error>)
    requires s.orders.WellFormed() && s.items.WellFormed()
    ensures OrderOwner !in s.users.rows ==> r == Failure(UserNotFound(OrderOwner))
    ensures OrderOwner in s.users.rows && FirstBad(s.products.rows, req.items) < |req.items| ==>
              r == Failure(LineError(s.products.rows, req.items[FirstBad(s.products.rows, req.items)]))
    ensures r.Success? <==> OrderOwner in s.users.rows
                            && forall i :: 0 <= i < |req.items| ==> LineOk(s.products.rows, req.items[i])
    ensures r.Failure? ==> r.error.Status() in {400, 404}
    ensures r.Success? ==>
              var o := r.value.body;
              var s' := r.value.store;
              && o == NewOrder(s.orders.next, req, now) && o.id !in s.orders.rows
              && s'.orders.rows == s.orders.rows[o.id := o] && s'.orders.WellFormed()
              && s'.items.WellFormed()
              && PlacedItems(s.items.rows, s'.items.rows, s.items.next, o.id, req.items, s.products.rows)
              && s' == s.(orders := s'.orders, items := s'.items)
  {
    if OrderOwner !in s.users.rows then Failure(UserNotFound(OrderOwner))
    else
      var snapshot :- ValidateLines(s.products.rows, req.items);
      Success(WriteOrder(s, req, now, snapshot))
  }

  /** A request that passed the schema (every quantity positive) can only fail
      on a missing user or product: the quantity check is unreachable. */
  lemma ValidOrderNeverInvalidQuantity(s: Store, req: OrderCreate, now: int)
    requires s.orders.WellFormed() && s.items.WellFormed()
    requires ValidOrderCreate(req)
    ensures CreateOrder(s, req, now).Failure? ==> CreateOrder(s, req, now).error.Status() == 404
  {
    var i := FirstBad(s.products.rows, req.items);
    if OrderOwner in s.users.rows && i < |req.items| {
      assert ValidOrderLine(req.items[i]);
    }
  }

  /** When no earlier item points at `orderId`, the items that do after a
      placement are exactly the new key range. */
  lemma PlacedItemsOwned(before: map<int, OrderItem>, after: map<int, OrderItem>, start: int, orderId: int,
                         lines: seq<OrderLine>, products: map<int, Product>)
    requires PlacedItems(before, after, start, orderId, lines, products)
    requires forall k :: k in before ==> before[k].orderId != orderId
    ensures forall k :: k in after && after[k].orderId == orderId <==> start <= k < start + |lines|
  {
    forall k | start <= k < start + |lines|
      ensures k in after && after[k].orderId == orderId
    {
      var i := k - start;
      assert 0 <= i < |lines| && k == start + i;
      assert lines[i].productId in products;
      assert after[start + i] == OrderItem(start + i, orderId, lines[i].productId,
                                           lines[i].quantity, products[lines[i].productId].price);
    }
  }

  /** After a successful create, the new order's items are exactly the new
      rows: no earlier item already pointed at the fresh order id. */
  lemma CreatedOrderOwnsNewItems(s: Store, req: OrderCreate, now: int)
    requires Inv(s)
    requires CreateOrder(s, req, now).Success?
    ensures var s' := CreateOrder(s, req, now).value.store;
            var id := CreateOrder(s, req, now).value.body.id;
            forall k :: k in s'.items.rows && s'.items.rows[k].orderId == id <==>
              s.items.next <= k < s.items.next + |req.items|
  {
    var rep := CreateOrder(s, req, now).value;
    assert rep.body.id !in s.orders.rows;
    assert forall k :: k in s.items.rows ==> s.items.rows[k].orderId in s.orders.rows;
    PlacedItemsOwned(s.items.rows, rep.store.items.rows, s.items.next, rep.body.id, req.items, s.products.rows);
  }

  // ---- reads ----------------------------------------------------------------

  /** `read_order`: the row, or 404. */
  function ReadOrder(s: Store, id: int): (r: Result<Order, Error>)
    ensures r.Success? <==> id in s.orders.rows
    ensures r.Success? ==> r.value == s.orders.rows[id]
    ensures r.Failure? ==> r.error == OrderNotFound(id) && r.error.Status() == 404
  {
    if id in s.orders.rows then Success(s.orders.rows[id]) else Failure(OrderNotFound(id))
  }

  /** The `WHERE` clause of `read_orders`: a truthy user id and a non-empty
      status each add a filter. */
  predicate OrderMatches(o: Order, userId: Option<int>, status: Option<string>) {
    && (Truthy(userId) ==> o.userId == userId.value)
    && (status.Some? && status.value != "" ==> o.status == status.value)
  }

  /** The filter `read_orders` applies, as a predicate on rows. */
  function OrderFilter(userId: Option<int>, status: Option<string>): Order -> bool {
    (o: Order) => OrderMatches(o, userId, status)
  }

  /** `read_orders`: one page of the matching orders, in the model's scan order. */
  function ListOrders(s: Store, userId: Option<int>, status: Option<string>, skip: nat, limit: nat): (r: seq<Order>)
    requires s.orders.WellFormed()
    ensures |r| <= limit
    ensures forall o :: o in r ==> o in s.orders.rows.Values && OrderMatches(o, userId, status)
    ensures IdsMatch(s) ==> forall i, j :: 0 <= i < j < |r| ==> r[i].id < r[j].id
    ensures skip == 0 && |s.orders.rows| <= limit ==>
              forall k :: k in s.orders.rows && OrderMatches(s.orders.rows[k], userId, status) ==>
                s.orders.rows[k] in r
  {
    var ks := Query(s.orders, OrderFilter(userId, status), skip, limit);
    var r := RowsAt(s.orders.rows, ks);
    assert forall k :: k in ks ==> s.orders.rows[k] in r by {
      forall k | k in ks ensures s.orders.rows[k] in r {
        var i :| 0 <= i < |ks| && ks[i] == k;
        assert r[i] == s.orders.rows[k];
      }
    }
    r
  }

  /** How many rows a page of `ListOrders` holds and which: `min(limit, max(0, n - skip))`
      of the `n` matches, namely those with between `skip` and `skip + limit - 1`
      matches before them in the model's scan order. */
  lemma ListOrdersPage(s: Store, userId: Option<int>, status: Option<string>, skip: nat, limit: nat)
    requires s.orders.WellFormed()
    ensures |ListOrders(s, userId, status, skip, limit)| == PageSize(|Matches(s.orders.rows, OrderFilter(userId, status))|, skip, limit)
    ensures forall k :: k in s.orders.rows && OrderMatches(s.orders.rows[k], userId, status) && skip <= Rank(s.orders.rows, OrderFilter(userId, status), k) < skip + limit ==>
              s.orders.rows[k] in ListOrders(s, userId, status, skip, limit)
    ensures IdsMatch(s) ==> forall k :: k in s.orders.rows && s.orders.rows[k] in ListOrders(s, userId, status, skip, limit) ==>
              skip <= Rank(s.orders.rows, OrderFilter(userId, status), k) < skip + limit
  {
    RowsOfPage(s.orders, OrderFilter(userId, status), skip, limit);
    assert IdsMatch(s) ==> Injective(s.orders.rows);
  }

  // ---- writes after creation --------------------------------------------------

  /** `update_order_status`: after the admin gate, 404 for a missing order,
      then 400 for a status outside the four names. Any of the four is
      accepted whatever the current status; only that order's status changes. */
  function UpdateOrderStatus(s: Store, b: Bearer, id: int, status: string): (r: Result<Reply<Order>, Error>)
    requires s.users.WellFormed()
    ensures CurrentAdminUser(s, b).Failure? ==> r == Failure(CurrentAdminUser(s, b).error)
    ensures CurrentAdminUser(s, b).Success? && id !in s.orders.rows ==> r == Failure(OrderNotFound(id))
    ensures CurrentAdminUser(s, b).Success? && id in s.orders.rows && status !in ValidStatuses ==>
              r == Failure(InvalidStatus(status)) && r.error.Status() == 400
    ensures r.Success? <==> CurrentAdminUser(s, b).Success? && id in s.orders.rows && status in ValidStatuses
    ensures r.Success? ==>
              && r.value.body == s.orders.rows[id].(status := status)
              && r.value.store == s.(orders := Table(s.orders.rows[id := r.value.body], s.orders.next))
  {
    var _ :- CurrentAdminUser(s, b);
    if id !in s.orders.rows then Failure(OrderNotFound(id))
    else if status !in ValidStatuses then Failure(InvalidStatus(status))
    else
      var o := s.orders.rows[id].(status := status);
      Success(Reply(s.(orders := Table(s.orders.rows[id := o], s.orders.next)), o))
  }

  /** `update_order_status` as written: its form parameter is called `status`
      and hides the module of status-code constants, so building either the
      404 or the 400 error looks an attribute up on a string and raises
      instead, which the client sees as a 500. Successful updates are
      unaffected. */
  function UpdateOrderStatusAsWritten(s: Store, b: Bearer, id: int, status: string): (r: Result<Reply<Order>, Error>)
    requires s.users.WellFormed()
    ensures CurrentAdminUser(s, b).Failure? ==> r == Failure(CurrentAdminUser(s, b).error)
    ensures CurrentAdminUser(s, b).Success? && r.Failure? ==> r.error == InternalError && r.error.Status() == 500
    ensures r.Success? <==> CurrentAdminUser(s, b).Success? && id in s.orders.rows && status in ValidStatuses
    ensures r.Success? ==>
              && r.value.body == s.orders.rows[id].(status := status)
              && r.value.store == s.(orders := Table(s.orders.rows[id := r.value.body], s.orders.next))
  {
    var _ :- CurrentAdminUser(s, b);
    if id !in s.orders.rows || status !in ValidStatuses then Failure(InternalError)
    else
      var o := s.orders.rows[id].(status := status);
      Success(Reply(s.(orders := Table(s.orders.rows[id := o], s.orders.next)), o))
  }

  /** The two versions agree except on the error paths after the admin gate:
      an administrator asking for a missing order, or for an unknown status,
      gets a 500 from the code as written where a 404 or a 400 is intended. */
  lemma ShadowedStatusHidesClientErrors(s: Store, b: Bearer, id: int, status: string)
    requires s.users.WellFormed()
    ensures UpdateOrderStatus(s, b, id, status).Success? ==>
              UpdateOrderStatusAsWritten(s, b, id, status) == UpdateOrderStatus(s, b, id, status)
    ensures CurrentAdminUser(s, b).Success? && id !in s.orders.rows ==>
              && UpdateOrderStatus(s, b, id, status).error.Status() == 404
              && UpdateOrderStatusAsWritten(s, b, id, status).error.Status() == 500
    ensures CurrentAdminUser(s, b).Success? && id in s.orders.rows && status !in ValidStatuses ==>
              && UpdateOrderStatus(s, b, id, status).error.Status() == 400
              && UpdateOrderStatusAsWritten(s, b, id, status).error.Status() == 500
  {
  }

  /** The items that survive deleting order `id`. */
  function ItemsWithout(items: map<int, OrderItem>, id: int): (r: map<int, OrderItem>)
    ensures forall k :: k in r <==> k in items && items[k].orderId != id
    ensures forall k :: k in r ==> r[k] == items[k]
  {
    map k | k in items && items[k].orderId != id :: items[k]
  }

  /** `delete_order`: after the admin gate, 404 for a missing order; otherwise
      the order goes and the cascade removes all of its items. */
  function DeleteOrder(s: Store, b: Bearer, id: int): (r: Result<Store, Error>)
    requires s.users.WellFormed()
    ensures CurrentAdminUser(s, b).Failure? ==> r == Failure(CurrentAdminUser(s, b).error)
    ensures CurrentAdminUser(s, b).Success? && id !in s.orders.rows ==> r == Failure(OrderNotFound(id))
    ensures r.Success? <==> CurrentAdminUser(s, b).Success? && id in s.orders.rows
    ensures r.Success? ==>
              && r.value.orders.rows.Keys == s.orders.rows.Keys - {id}
              && (forall k :: k in r.value.orders.rows ==> r.value.orders.rows[k] == s.orders.rows[k])
              && (forall k :: k in r.value.items.rows ==> r.value.items.rows[k].orderId != id)
              && (forall k :: k in s.items.rows && s.items.rows[k].orderId != id ==>
                    k in r.value.items.rows && r.value.items.rows[k] == s.items.rows[k])
              && (forall k :: k in r.value.items.rows ==> k in s.items.rows)
              && r.value == s.(orders := Table(r.value.orders.rows, s.orders.next),
                               items := Table(r.value.items.rows, s.items.next))
  {
    var _ :- CurrentAdminUser(s, b);
    if id !in s.orders.rows then Failure(OrderNotFound(id))
    else
      Success(s.(orders := Table(s.orders.rows - {id}, s.orders.next),
                 items := Table(ItemsWithout(s.items.rows, id), s.items.next)))
  }
}

=== FILE: readback.dfy ===
/** What a client observes through the read endpoints after each write:
    the written row comes back, a deleted row is a 404, and every other row
    reads as before. */
module ReadBack {
  import opened Wrappers
  import opened Errors
  import opened Tables
  import opened Models
  import opened Schemas
  import opened Auth
  import Accounts
  import Catalog
  import Reviews
  import Orders

  // ---- accounts ---------------------------------------------------------------

  /** A fresh registration can log in with the password it registered,
      provided the password context checks a plaintext against its own hash. */
  lemma RegisterThenLogin(s: Store, h: Hasher, salt: Salt, codec: TokenCodec, req: UserCreate, now: int)
    requires Inv(s) && SoundHasher(h)
    requires Accounts.Register(s, h, salt, req).Success?
    ensures Accounts.Login(Accounts.Register(s, h, salt, req).value.store, h, codec,
                           LoginForm(req.username, req.password), now).Success?
  {
    var rep := Accounts.Register(s, h, salt, req).value;
    var users := rep.store.users;
    var u := rep.body;
    assert forall k :: k in s.users.rows ==> s.users.rows[k].username != u.username;
    assert UniqueUsernames(users.rows);
    assert u.id in users.rows && users.rows[u.id] == u;
    assert h.verify(req.password, u.hashedPassword);
  }

  // ---- products ---------------------------------------------------------------

  lemma CreateProductThenRead(s: Store, b: Bearer, req: ProductCreate, id: int)
    requires s.users.WellFormed() && s.products.WellFormed()
    requires Catalog.CreateProduct(s, b, req).Success?
    ensures var rep := Catalog.CreateProduct(s, b, req).value;
            && Catalog.ReadProduct(rep.store, rep.body.id) == Success(rep.body)
            && Catalog.ReadProduct(s, rep.body.id).Failure?
            && (id != rep.body.id ==> Catalog.ReadProduct(rep.store, id) == Catalog.ReadProduct(s, id))
  {
  }

  lemma UpdateProductThenRead(s: Store, b: Bearer, id: int, req: ProductCreate, other: int)
    requires s.users.WellFormed() && s.products.WellFormed()
    requires Catalog.UpdateProduct(s, b, id, req).Success?
    ensures var s' := Catalog.UpdateProduct(s, b, id, req).value.store;
            && Catalog.ReadProduct(s', id) == Success(Catalog.Patch(s.products.rows[id], req))
            && (other != id ==> Catalog.ReadProduct(s', other) == Catalog.ReadProduct(s, other))
  {
  }

  lemma DeleteProductThenRead(s: Store, b: Bearer, id: int, other: int)
    requires s.users.WellFormed()
    requires Catalog.DeleteProduct(s, b, id).Success?
    ensures var s' := Catalog.DeleteProduct(s, b, id).value;
            && Catalog.ReadProduct(s', id) == Failure(ProductNotFound(id))
            && (other != id ==> Catalog.ReadProduct(s', other) == Catalog.ReadProduct(s, other))
  {
  }

  // ---- reviews ----------------------------------------------------------------

  lemma CreateReviewThenRead(s: Store, req: ReviewCreate, now: int, id: int)
    requires s.reviews.WellFormed()
    requires Reviews.CreateReview(s, req, now).Success?
    ensures var rep := Reviews.CreateReview(s, req, now).value;
            && Reviews.ReadReview(rep.store, rep.body.id) == Success(rep.body)
            && Reviews.ReadReview(s, rep.body.id).Failure?
            && (id != rep.body.id ==> Reviews.ReadReview(rep.store, id) == Reviews.ReadReview(s, id))
  {
  }

  lemma DeleteReviewThenRead(s: Store, b: Bearer, id: int, other: int)
    requires s.users.WellFormed()
    requires Reviews.DeleteReview(s, b, id).Success?
    ensures var s' := Reviews.DeleteReview(s, b, id).value;
            && Reviews.ReadReview(s', id) == Failure(ReviewNotFound(id))
            && (other != id ==> Reviews.ReadReview(s', other) == Reviews.ReadReview(s, other))
  {
  }

  // ---- orders -----------------------------------------------------------------

  /** The new order reads back as a pending order of user 1 with the request's
      total, and each request line is among its items, under its own fresh key
      and priced at the product's price. */
  lemma CreateOrderThenRead(s: Store, req: OrderCreate, now: int, id: int)
    requires s.orders.WellFormed() && s.items.WellFormed()
    requires Orders.CreateOrder(s, req, now).Success?
    ensures var rep := Orders.CreateOrder(s, req, now).value;
            && Orders.ReadOrder(rep.store, rep.body.id) == Success(rep.body)
            && rep.body.userId == Orders.OrderOwner
            && rep.body.status == DefaultOrderStatus
            && rep.body.totalAmount == req.totalAmount
            && Orders.ReadOrder(s, rep.body.id).Failure?
            && (id != rep.body.id ==> Orders.ReadOrder(rep.store, id) == Orders.ReadOrder(s, id))
            && forall i :: 0 <= i < |req.items| ==>
                 && req.items[i].productId in s.products.rows
                 && OrderItem(s.items.next + i, rep.body.id, req.items[i].productId, req.items[i].quantity,
                              s.products.rows[req.items[i].productId].price) in ItemsOf(rep.store, rep.body.id)
  {
  }

  lemma UpdateOrderStatusThenRead(s: Store, b: Bearer, id: int, status: string, other: int)
    requires s.users.WellFormed()
    requires Orders.UpdateOrderStatus(s, b, id, status).Success?
    ensures var s' := Orders.UpdateOrderStatus(s, b, id, status).value.store;
            && Orders.ReadOrder(s', id) == Success(s.orders.rows[id].(status := status))
            && (other != id ==> Orders.ReadOrder(s', other) == Orders.ReadOrder(s, other))
  {
  }

  /** After a delete the order is a 404 and no item belongs to it any more. */
  lemma DeleteOrderThenRead(s: Store, b: Bearer, id: int, other: int)
    requires s.users.WellFormed() && s.items.WellFormed()
    requires Orders.DeleteOrder(s, b, id).Success?
    ensures var s' := Orders.DeleteOrder(s, b, id).value;
            && Orders.ReadOrder(s', id) == Failure(OrderNotFound(id))
            && ItemsOf(s', id) == []
            && (other != id ==> Orders.ReadOrder(s', other) == Orders.ReadOrder(s, other))
  {
    var s' := Orders.DeleteOrder(s, b, id).value;
    assert s'.items == Table(s'.items.rows, s.items.next);
    assert forall k :: k in s'.items.rows ==> k in s.items.rows;
  }
}

=== FILE: reviews.dfy ===
/** The review endpoints: create, list, read and delete. */
module Reviews {
  import opened Wrappers
  import opened Errors
  import opened Tables
  import opened Models
  import opened Schemas
  import opened Auth

  /** `create_review`: the author named in the body must exist (404); a truthy
      product id must name an existing product (404), while a missing or zero
      id skips that check and is stored as given. Nothing is written on failure. */
  function CreateReview(s: Store, req: ReviewCreate, now: int): (r: Result<Reply<Review>, Error>)
    requires s.reviews.WellFormed()
    ensures req.userId !in s.users.rows ==> r == Failure(UserNotFound(req.userId))
    ensures req.userId in s.users.rows && Truthy(req.productId) && req.productId.value !in s.products.rows ==>
              r == Failure(ProductNotFound(req.productId.value))
    ensures r.Failure? ==> r.error.Status() == 404
    ensures r.Success? <==> req.userId in s.users.rows && (Truthy(req.productId) ==> req.productId.value in s.products.rows)
    ensures r.Success? ==>
              var v := r.value.body;
              var s' := r.value.store;
              && v.id !in s.reviews.rows
              && v == Review(v.id, req.userId, req.productId, req.rating, req.comment, now)
              && s'.reviews.rows == s.reviews.rows[v.id := v]
              && s'.reviews.WellFormed()
              && s' == s.(reviews := s'.reviews)
  {
    if req.userId !in s.users.rows then Failure(UserNotFound(req.userId))
    else if Truthy(req.productId) && req.productId.value !in s.products.rows then
      Failure(ProductNotFound(req.productId.value))
    else
      var v := Review(s.reviews.next, req.userId, req.productId, req.rating, req.comment, now);
      Success(Reply(s.(reviews := s.reviews.Insert(v)), v))
  }

  /** The `WHERE` clause of `read_reviews`: each filter applies only when its
      argument is truthy. */
  predicate ReviewMatches(v: Review, productId: Option<int>, userId: Option<int>) {
    && (Truthy(productId) ==> v.productId == productId)
    && (Truthy(userId) ==> v.userId == userId.value)
  }

  /** The filter `read_reviews` applies, as a predicate on rows. */
  function ReviewFilter(productId: Option<int>, userId: Option<int>): Review -> bool {
    (v: Review) => ReviewMatches(v, productId, userId)
  }

  /** `read_reviews`: one page of the matching reviews, in the model's scan order. */
  function ListReviews(s: Store, productId: Option<int>, userId: Option<int>, skip: nat, limit: nat): (r: seq<Review>)
    requires s.reviews.WellFormed()
    ensures |r| <= limit
    ensures forall v :: v in r ==> v in s.reviews.rows.Values && ReviewMatches(v, productId, userId)
    ensures IdsMatch(s) ==> forall i, j :: 0 <= i < j < |r| ==> r[i].id < r[j].id
    ensures skip == 0 && |s.reviews.rows| <= limit ==>
              forall k :: k in s.reviews.rows && ReviewMatches(s.reviews.rows[k], productId, userId) ==>
                s.reviews.rows[k] in r
  {
    var ks := Query(s.reviews, ReviewFilter(productId, userId), skip, limit);
    var r := RowsAt(s.reviews.rows, ks);
    assert forall k :: k in ks ==> s.reviews.rows[k] in r by {
      forall k | k in ks ensures s.reviews.rows[k] in r {
        var i :| 0 <= i < |ks| && ks[i] == k;
        assert r[i] == s.reviews.rows[k];
      }
    }
    r
  }

  /** How many rows a page of `ListReviews` holds and which: `min(limit, max(0, n - skip))`
      of the `n` matches, namely those with between `skip` and `skip + limit - 1`
      matches before them in the model's scan order. */
  lemma ListReviewsPage(s: Store, productId: Option<int>, userId: Option<int>, skip: nat, limit: nat)
    requires s.reviews.WellFormed()
    ensures |ListReviews(s, productId, userId, skip, limit)| == PageSize(|Matches(s.reviews.rows, ReviewFilter(productId, userId))|, skip, limit)
    ensures forall k :: k in s.reviews.rows && ReviewMatches(s.reviews.rows[k], productId, userId) && skip <= Rank(s.reviews.rows, ReviewFilter(productId, userId), k) < skip + limit ==>
              s.reviews.rows[k] in ListReviews(s, productId, userId, skip, limit)
    ensures IdsMatch(s) ==> forall k :: k in s.reviews.rows && s.reviews.rows[k] in ListReviews(s, productId, userId, skip, limit) ==>
              skip <= Rank(s.reviews.rows, ReviewFilter(productId, userId), k) < skip + limit
  {
    RowsOfPage(s.reviews, ReviewFilter(productId, userId), skip, limit);
    assert IdsMatch(s) ==> Injective(s.reviews.rows);
  }

  /** `read_review`: the row, or 404. */
  function ReadReview(s: Store, id: int): (r: Result<Review, Error>)
    ensures r.Success? <==> id in s.reviews.rows
    ensures r.Success? ==> r.value == s.reviews.rows[id]
    ensures r.Failure? ==> r.error == ReviewNotFound(id) && r.error.Status() == 404
  {
    if id in s.reviews.rows then Success(s.reviews.rows[id]) else Failure(ReviewNotFound(id))
  }

  /** `delete_review`: after the admin gate, 404 for an absent id; otherwise
      only that row goes. */
  function DeleteReview(s: Store, b: Bearer, id: int): (r: Result<Store, Error>)
    requires s.users.WellFormed()
    ensures CurrentAdminUser(s, b).Failure? ==> r == Failure(CurrentAdminUser(s, b).error)
    ensures CurrentAdminUser(s, b).Success? && id !in s.reviews.rows ==> r == Failure(ReviewNotFound(id))
    ensures r.Success? <==> CurrentAdminUser(s, b).Success? && id in s.reviews.rows
    ensures r.Success? ==>
              && r.value.reviews.rows.Keys == s.reviews.rows.Keys - {id}
              && (forall k :: k in r.value.reviews.rows ==> r.value.reviews.rows[k] == s.reviews.rows[k])
              && r.value == s.(reviews := Table(r.value.reviews.rows, s.reviews.next))
  {
    var _ :- CurrentAdminUser(s, b);
    if id !in s.reviews.rows then Failure(ReviewNotFound(id))
    else Success(s.(reviews := Table(s.reviews.rows - {id}, s.reviews.next)))
  }
}

=== FILE: schemas.dfy ===
/** The request bodies the backend accepts and the field constraints the
    request validator enforces before a handler runs. */
module Schemas {
  import opened Wrappers

  /** An optional request field: left out by the client, or given (possibly as null).
      The distinction matters to the partial product update. */
  datatype Field<T> = Unset | Given(value: T) {

    /** The value the row receives when the field takes its default. */
    function Or(default: T): T {
      match this
      case Given(v) => v
      case Unset => default
    }
  }

  /** Body of `POST /api/auth/register`. An unset `isAdmin` means false. */
  datatype UserCreate = UserCreate(
    username: string,
    email: string,
    password: string,
    fullName: Option<string>,
    isAdmin: Field<bool>)

  /** Body of product create and update. */
  datatype ProductCreate = ProductCreate(
    name: string,
    description: Field<Option<string>>,
    price: int,
    imageUrl: Field<Option<string>>,
    isAvailable: Field<bool>)

  /** Body of `POST /api/reviews/`; the author's id comes from the body. */
  datatype ReviewCreate = ReviewCreate(
    userId: int,
    productId: Option<int>,
    rating: int,
    comment: string)

  /** One line of an order request. */
  datatype OrderLine = OrderLine(productId: int, quantity: int)

  /** Body of `POST /api/orders/`. */
  datatype OrderCreate = OrderCreate(
    items: seq<OrderLine>,
    totalAmount: int,
    shippingAddress: string,
    paymentMethod: string,
    recipientName: string,
    recipientPhone: string)

  /** Credentials of the login form. */
  datatype LoginForm = LoginForm(username: string, password: string)

  /** Username 3..50 characters, password 6..100, full name at most 100.
      The e-mail syntax check is not modelled. */
  predicate ValidUserCreate(u: UserCreate) {
    && 3 <= |u.username| <= 50
    && 6 <= |u.password| <= 100
    && (u.fullName.Some? ==> |u.fullName.value| <= 100)
  }

  /** Name 1..100 characters, description at most 500, price strictly positive. */
  predicate ValidProductCreate(p: ProductCreate) {
    && 1 <= |p.name| <= 100
    && (p.description.Given? && p.description.value.Some? ==> |p.description.value.value| <= 500)
    && p.price > 0
  }

  /** Rating in [1, 5], comment 1..500 characters. */
  predicate ValidReviewCreate(r: ReviewCreate) {
    && 1 <= r.rating <= 5
    && 1 <= |r.comment| <= 500
  }

  /** Quantity strictly positive. */
  predicate ValidOrderLine(l: OrderLine) {
    l.quantity > 0
  }

  /** At least one line, every line valid, a positive total, and non-empty
      shipping, payment and recipient fields. */
  predicate ValidOrderCreate(o: OrderCreate) {
    && |o.items| >= 1
    && (forall i :: 0 <= i < |o.items| ==> ValidOrderLine(o.items[i]))
    && o.totalAmount > 0
    && |o.shippingAddress| >= 1
    && |o.paymentMethod| >= 1
    && |o.recipientName| >= 1
    && |o.recipientPhone| >= 1
  }
}

=== FILE: tables.dfy ===
/** A database table as the ORM sees it: rows keyed by an auto-assigned
    integer primary key. Queries carry no `ORDER BY`; the model fixes the
    scan order the database is free to choose as ascending key order. */
module Tables {
  import opened Wrappers

  /** The keys strictly increase along `ks`. */
  predicate Increasing(ks: seq<int>) {
    forall i, j :: 0 <= i < j < |ks| ==> ks[i] < ks[j]
  }

  /** Rows keyed by primary key; `next` is the key the next insert receives. */
  datatype Table<T> = Table(rows: map<int, T>, next: int) {

    /** Every key was handed out by the counter, which starts at 1. */
    predicate WellFormed() {
      && next >= 1
      && forall k :: k in rows ==> 1 <= k < next
    }

    /** `INSERT`: the row lands under the next key and the counter moves on. */
    function Insert(row: T): (t: Table<T>)
      requires WellFormed()
      ensures t.WellFormed()
      ensures t.rows.Keys == rows.Keys + {next} && next !in rows
      ensures t.rows[next] == row
      ensures forall k :: k in rows ==> t.rows[k] == rows[k]
      ensures |t.rows| == |rows| + 1
    {
      Table(rows[next := row], next + 1)
    }

    /** The keys in use, in the model's scan order (ascending). */
    function Keys(): (ks: seq<int>)
      ensures Increasing(ks)
      ensures WellFormed() ==> forall k :: k in ks <==> k in rows
      ensures WellFormed() ==> |ks| == |rows|
    {
      var ks := KeysIn(rows, 1, next);
      KeysInCount(rows, 1, next);
      assert WellFormed() ==> KeysBetween(rows, 1, next) == rows.Keys;
      ks
    }
  }

  function EmptyTable<T>(): (t: Table<T>)
    ensures t.WellFormed() && |t.rows| == 0
  {
    Table(map[], 1)
  }

  /** The keys of `m` in `[lo, hi)`, as a set. */
  function KeysBetween<T>(m: map<int, T>, lo: int, hi: int): set<int> {
    set k | k in m && lo <= k < hi
  }

  /** The keys of `m` in `[lo, hi)`, ascending. */
  function KeysIn<T>(m: map<int, T>, lo: int, hi: int): (ks: seq<int>)
    decreases hi - lo
    ensures forall k :: k in ks <==> k in m && lo <= k < hi
    ensures Increasing(ks)
  {
    if lo >= hi then []
    else
      var rest := KeysIn(m, lo + 1, hi);
      if lo in m then
        assert forall i :: 0 <= i < |rest| ==> lo < rest[i] by {
          forall i | 0 <= i < |rest| ensures lo < rest[i] {
            assert rest[i] in rest;
          }
        }
        [lo] + rest
      else rest
  }

  /** The ascending key list has no repetition: one entry per key in range. */
  lemma {:induction false} KeysInCount<T>(m: map<int, T>, lo: int, hi: int)
    decreases hi - lo
    ensures |KeysIn(m, lo, hi)| == |KeysBetween(m, lo, hi)|
  {
    if lo >= hi {
      assert KeysBetween(m, lo, hi) == {};
    } else {
      KeysInCount(m, lo + 1, hi);
      if lo in m {
        assert KeysBetween(m, lo, hi) == {lo} + KeysBetween(m, lo + 1, hi);
      } else {
        assert KeysBetween(m, lo, hi) == KeysBetween(m, lo + 1, hi);
      }
    }
  }

  /** The keys of `ks` whose row satisfies `p` (a `WHERE` clause), in the same order. */
  function Select<T>(m: map<int, T>, ks: seq<int>, p: T -> bool): (r: seq<int>)
    ensures forall k :: k in r <==> k in ks && k in m && p(m[k])
    ensures Increasing(ks) ==> Increasing(r)
    ensures |r| <= |ks|
  {
    if |ks| == 0 then []
    else
      var rest := Select(m, ks[1..], p);
      assert forall k :: k in ks <==> k == ks[0] || k in ks[1..];
      assert Increasing(ks) ==> Increasing(ks[1..]);
      if ks[0] in m && p(m[ks[0]]) then
        assert Increasing(ks) ==> forall i :: 0 <= i < |rest| ==> ks[0] < rest[i] by {
          if Increasing(ks) {
            forall i | 0 <= i < |rest| ensures ks[0] < rest[i] {
              assert rest[i] in ks[1..];
              var j :| 0 <= j < |ks[1..]| && ks[1..][j] == rest[i];
              assert ks[1 + j] == rest[i];
            }
          }
        }
        [ks[0]] + rest
      else rest
  }

  /** A `WHERE` clause no listed row satisfies selects nothing. */
  lemma {:induction false} SelectNone<T>(m: map<int, T>, ks: seq<int>, p: T -> bool)
    decreases |ks|
    ensures (forall k :: k in ks && k in m ==> !p(m[k])) ==> Select(m, ks, p) == []
  {
    if |ks| > 0 && forall k :: k in ks && k in m ==> !p(m[k]) {
      assert ks[0] in ks;
      assert forall k :: k in ks[1..] ==> k in ks;
      SelectNone(m, ks[1..], p);
    }
  }

  /** `OFFSET skip LIMIT limit`. */
  function Page<X>(s: seq<X>, skip: nat, limit: nat): (r: seq<X>)
    ensures |r| <= limit
    ensures skip >= |s| ==> r == []
    ensures skip < |s| ==> r == s[skip..(if skip + limit <= |s| then skip + limit else |s|)]
    ensures skip == 0 && |s| <= limit ==> r == s
  {
    var lo := if skip <= |s| then skip else |s|;
    var hi := if skip + limit <= |s| then skip + limit else |s|;
    s[lo..hi]
  }

  /** The rows stored under the keys `ks`, in the order of `ks`. */
  function RowsAt<T>(m: map<int, T>, ks: seq<int>): (r: seq<T>)
    requires forall i :: 0 <= i < |ks| ==> ks[i] in m
    ensures |r| == |ks|
    ensures forall i :: 0 <= i < |ks| ==> r[i] == m[ks[i]]
  {
    seq(|ks|, i requires 0 <= i < |ks| => m[ks[i]])
  }

  /** The first key of `ks` (scanning in order) whose row satisfies `p`:
      `query.filter(...).first()`. */
  function FirstWhere<T>(m: map<int, T>, ks: seq<int>, p: T -> bool): (r: Option<int>)
    ensures r.Some? ==> r.value in ks && r.value in m && p(m[r.value])
    ensures r.Some? && Increasing(ks) ==> forall k :: k in ks && k in m && p(m[k]) ==> r.value <= k
    ensures r.None? <==> forall k :: k in ks && k in m ==> !p(m[k])
  {
    if |ks| == 0 then None
    else if ks[0] in m && p(m[ks[0]]) then
      assert ks[0] in ks;
      assert Increasing(ks) ==> forall i :: 0 <= i < |ks| ==> ks[0] <= ks[i];
      Some(ks[0])
    else
      var r := FirstWhere(m, ks[1..], p);
      assert forall k :: k in ks[1..] ==> k in ks;
      assert forall k :: k in ks ==> k == ks[0] || k in ks[1..];
      r
  }

  /** The keys of `m` whose row satisfies `p`. */
  ghost function Matches<T>(m: map<int, T>, p: T -> bool): set<int> {
    set k | k in m && p(m[k])
  }

  /** How many matching keys come before `k` in the model's scan order: the
      position the row under `k` takes among the matching rows. */
  ghost function Rank<T>(m: map<int, T>, p: T -> bool, k: int): nat {
    |set j | j in m && p(m[j]) && j < k|
  }

  /** How many of `n` rows `OFFSET skip LIMIT limit` keeps. */
  function PageSize(n: nat, skip: nat, limit: nat): nat {
    if skip >= n then 0 else if n - skip < limit then n - skip else limit
  }

  /** The first key of an increasing list does not occur again. */
  lemma HeadNotInTail(s: seq<int>)
    requires Increasing(s) && |s| > 0
    ensures s[0] !in s[1..]
  {
    forall j | 0 <= j < |s[1..]| ensures s[1..][j] != s[0] {
      assert s[1..][j] == s[j + 1];
    }
  }

  /** The elements of a non-empty list are its head and the elements of its tail. */
  lemma ElementsCons(s: seq<int>)
    requires |s| > 0
    ensures (set x | x in s) == (set x | x in s[1..]) + {s[0]}
  {
    assert s == [s[0]] + s[1..];
  }

  /** An increasing list has as many distinct elements as entries. */
  lemma {:induction false} IncreasingCard(s: seq<int>)
    requires Increasing(s)
    decreases |s|
    ensures |set x | x in s| == |s|
  {
    if |s| > 0 {
      assert Increasing(s[1..]);
      IncreasingCard(s[1..]);
      HeadNotInTail(s);
      ElementsCons(s);
    }
  }

  /** In an increasing list of exactly the matching keys, the entry at
      position `i` has rank `i`. */
  lemma RankAt<T>(m: map<int, T>, p: T -> bool, ks: seq<int>, i: int)
    requires Increasing(ks)
    requires forall k :: k in ks <==> k in m && p(m[k])
    requires 0 <= i < |ks|
    ensures Rank(m, p, ks[i]) == i
  {
    var below := set j | j in m && p(m[j]) && j < ks[i];
    var prefix := set x | x in ks[..i];
    forall x | x in prefix ensures x in below {
      var l :| 0 <= l < i && ks[l] == x;
      assert x in ks;
    }
    forall x | x in below ensures x in prefix {
      var l :| 0 <= l < |ks| && ks[l] == x;
      assert l < i;
      assert ks[..i][l] == x;
    }
    assert below == prefix;
    assert Increasing(ks[..i]);
    IncreasingCard(ks[..i]);
  }

  /** An increasing list of exactly the matching keys has one entry per match. */
  lemma MatchCount<T>(m: map<int, T>, p: T -> bool, ks: seq<int>)
    requires Increasing(ks)
    requires forall k :: k in ks <==> k in m && p(m[k])
    ensures |ks| == |Matches(m, p)|
  {
    assert (set x | x in ks) == Matches(m, p) by {
      forall x ensures x in ks <==> x in Matches(m, p) {
      }
    }
    IncreasingCard(ks);
  }

  /** Every key on a page of the matching keys has its rank inside the window. */
  lemma PagedRanked<T>(m: map<int, T>, p: T -> bool, ks: seq<int>, skip: nat, limit: nat, k: int)
    requires Increasing(ks)
    requires forall k :: k in ks <==> k in m && p(m[k])
    requires k in Page(ks, skip, limit)
    ensures k in m && p(m[k]) && skip <= Rank(m, p, k) < skip + limit
  {
    var r := Page(ks, skip, limit);
    var l :| 0 <= l < |r| && r[l] == k;
    assert k == ks[skip + l];
    RankAt(m, p, ks, skip + l);
  }

  /** Every matching key whose rank lies inside the window is on the page. */
  lemma RankedPaged<T>(m: map<int, T>, p: T -> bool, ks: seq<int>, skip: nat, limit: nat, k: int)
    requires Increasing(ks)
    requires forall k :: k in ks <==> k in m && p(m[k])
    requires k in m && p(m[k]) && skip <= Rank(m, p, k) < skip + limit
    ensures k in Page(ks, skip, limit)
  {
    var l :| 0 <= l < |ks| && ks[l] == k;
    RankAt(m, p, ks, l);
    assert Page(ks, skip, limit)[l - skip] == k;
  }

  /** A page of an increasing list of exactly the matching keys holds
      `PageSize` of them: those whose rank lies in `[skip, skip + limit)`. */
  lemma PageOfMatches<T>(m: map<int, T>, p: T -> bool, ks: seq<int>, skip: nat, limit: nat)
    requires Increasing(ks)
    requires forall k :: k in ks <==> k in m && p(m[k])
    ensures |Page(ks, skip, limit)| == PageSize(|Matches(m, p)|, skip, limit)
    ensures forall k :: k in Page(ks, skip, limit) <==> k in m && p(m[k]) && skip <= Rank(m, p, k) < skip + limit
  {
    MatchCount(m, p, ks);
    forall k ensures k in Page(ks, skip, limit) <==> k in m && p(m[k]) && skip <= Rank(m, p, k) < skip + limit {
      if k in Page(ks, skip, limit) {
        PagedRanked(m, p, ks, skip, limit, k);
      }
      if k in m && p(m[k]) && skip <= Rank(m, p, k) < skip + limit {
        RankedPaged(m, p, ks, skip, limit, k);
      }
    }
  }

  /** `query.filter(p).offset(skip).limit(limit)`: the keys of the matching
      rows in the model's scan order, one page of them. */
  function Query<T>(t: Table<T>, p: T -> bool, skip: nat, limit: nat): (r: seq<int>)
    requires t.WellFormed()
    ensures |r| <= limit
    ensures Increasing(r)
    ensures forall k :: k in r ==> k in t.rows && p(t.rows[k])
    ensures skip == 0 && |t.rows| <= limit ==> forall k :: k in t.rows && p(t.rows[k]) ==> k in r
    ensures |r| == PageSize(|Matches(t.rows, p)|, skip, limit)
    ensures forall k :: k in r <==> k in t.rows && p(t.rows[k]) && skip <= Rank(t.rows, p, k) < skip + limit
  {
    var matching := Select(t.rows, t.Keys(), p);
    var r := Page(matching, skip, limit);
    assert Increasing(matching) && forall k :: k in matching <==> k in t.rows && p(t.rows[k]);
    assert |r| == PageSize(|Matches(t.rows, p)|, skip, limit)
        && forall k :: k in r <==> k in t.rows && p(t.rows[k]) && skip <= Rank(t.rows, p, k) < skip + limit
    by {
      PageOfMatches(t.rows, p, matching, skip, limit);
    }
    assert forall k :: k in r ==> k in matching;
    assert Increasing(r) by {
      if skip < |matching| {
        forall i, j | 0 <= i < j < |r| ensures r[i] < r[j] {
          assert r[i] == matching[skip + i] && r[j] == matching[skip + j];
        }
      }
    }
    r
  }

  /** No two keys of `m` hold the same row. */
  ghost predicate Injective<T>(m: map<int, T>) {
    forall a, b :: a in m && b in m && m[a] == m[b] ==> a == b
  }

  /** A predicate every row satisfies matches every key. */
  lemma MatchesAll<T>(m: map<int, T>, p: T -> bool)
    requires forall k :: k in m ==> p(m[k])
    ensures |Matches(m, p)| == |m|
  {
    assert Matches(m, p) == m.Keys by {
      forall k ensures k in Matches(m, p) <==> k in m {
      }
    }
  }

  /** The rows `RowsAt` reads are those of the listed keys; when no two keys
      hold the same row, exactly those. */
  lemma RowsAtMembers<T>(m: map<int, T>, ks: seq<int>)
    requires forall i :: 0 <= i < |ks| ==> ks[i] in m
    ensures forall k :: k in ks ==> m[k] in RowsAt(m, ks)
    ensures Injective(m) ==> forall k :: k in m && m[k] in RowsAt(m, ks) ==> k in ks
  {
    var r := RowsAt(m, ks);
    forall k | k in ks ensures m[k] in r {
      var i :| 0 <= i < |ks| && ks[i] == k;
      assert r[i] == m[k];
    }
    if Injective(m) {
      forall k | k in m && m[k] in r ensures k in ks {
        var i :| 0 <= i < |r| && r[i] == m[k];
        assert m[ks[i]] == m[k] && ks[i] in m;
        assert ks[i] == k;
        assert ks[i] in ks;
      }
    }
  }

  /** The rows of one page, `query.filter(p).offset(skip).limit(limit).all()`:
      `PageSize` of the matching rows, namely those whose rank lies in
      `[skip, skip + limit)`. */
  lemma RowsOfPage<T>(t: Table<T>, p: T -> bool, skip: nat, limit: nat)
    requires t.WellFormed()
    ensures var r := RowsAt(t.rows, Query(t, p, skip, limit));
            && |r| == PageSize(|Matches(t.rows, p)|, skip, limit)
            && (forall k :: k in t.rows && p(t.rows[k]) && skip <= Rank(t.rows, p, k) < skip + limit ==> t.rows[k] in r)
            && (Injective(t.rows) ==> forall k :: k in t.rows && t.rows[k] in r ==> skip <= Rank(t.rows, p, k) < skip + limit)
  {
    RowsAtMembers(t.rows, Query(t, p, skip, limit));
  }
}

=== FILE: wrappers.dfy ===
/** The optional value and the failure-compatible Result type the handlers return. */
module Wrappers {

  /** A value that may be absent: Python's `Optional[...]`, SQL's nullable column. */
  datatype Option<+T> = None | Some(value: T)

  /** Either a value or an error; usable with `:-`. */
  datatype Result<+R, +E> = Success(value: R) | Failure(error: E) {

    predicate IsFailure() {
      Failure?
    }

    function PropagateFailure<U>(): Result<U, E>
      requires Failure?
    {
      Failure(error)
    }

    function Extract(): R
      requires Success?
    {
      value
    }
  }
}
